=== FILE: README.md ===
# Binary-encoded genetic algorithm, modelled in Dafny

This project models the core of a small genetic algorithm. The algorithm
maximises `f(x1, x2) = 21.5 + x1·sin(4πx1) + x2·sin(20πx2)` over
`x1 ∈ [-3.0, 12.1]`, `x2 ∈ [4.1, 5.8]` at precision `0.0001`. It is modelled
as pure functions over sequences:

- **Chromosome** (`chromosome.dfy`, module `Chromosomes`): an immutable
  `seq<bool>`.
  - Construction from a string. Any character other than `'1'` gives a clear bit.
  - Construction from a bit sequence. This is the datatype constructor itself.
  - Copying a mutable bit array (`FromBitArray`).
  - Inclusive sub-range extraction, with the source's two exceptions.
  - Rendering back to a `'0'/'1'` string.
- **Binary codec** (`binary.dfy`, module `BinaryCodec`):
  - `DecToBinary`: a natural number to its binary string, most significant bit first, no leading zeros.
  - `BinaryToDec`: the string back to the number.
  - `PadLeft`: left padding with `'0'`.
  - The source's two loops, as methods proved equal to the functions.
- **Encoding** (`encoding.dfy`, module `Encoding`):
  - `GetEncodeLen`: the segment bit length, as the least `L` with `2^L ≥ (max − min)/precision + 1`, over exact reals.
  - `Encode`: pads and joins the two scaled integers.
  - `Decode`: splits at the first segment's length and parses both halves.
- **Quantization** (`quantize.dfy`): the problem's domain (x1 in [-3.0, 12.1], x2 in [4.1, 5.8]).
  - `Quantize` is the linear map from a real in [min, max] to one of the 2^L levels of a segment, truncated.
  - `Dequantize` maps a level back to a real.
  - `EncodePoint` and `DecodePoint` are the source's `Encode`/`Decode` on real points, over exact reals.
- **Sampling** (`sampling.dfy`): the random initial points.
  - The source's x1 draw, which uses the wrong upper bound. The initial population uses this draw, as the source does.
  - The intended x1 draw, kept beside it as the corrected definition.
- **Randomness** (`randomness.dfy`): each call on the shared generator is an
  explicit draw in `[0, 1)`. `RandomNumber` scales a draw, and `Truncate` models
  the `(int)` cast, which truncates toward zero.
- **Operators** (`operators.dfy`): `Crossover`, a tail exchange between two
  distinct parents, and `Mutation`, a per-bit flip when the draw is at most
  the mutation probability.
- **Roulette** (`selection.dfy`): `Selection`. It normalises the fitness
  values, builds the running sums starting at 0, and for each draw scans
  linearly for the first half-open interval that contains it.
- **History** (`history.dfy`): `Fitness`. It keeps the local-best and
  global-best histories and the best-solution record.
- **Engine** (`engine.dfy`): `Initial`, one generation (`Step`) and `Run`.
  A run is the initial fitness pass plus one step per generation.

`objective: Scaled -> real` is a parameter standing for the objective function composed with
`Dequantize`. `Scaled` is the pair of integers a chromosome decodes to.

## Model

| member | source | states |
|---|---|---|
| Chromosomes.FromString | GeneticAlgorithm/Chromosome.cs:16-24 | the chromosome has the string's length and bit i is set exactly when character i is '1' (any other character gives a clear bit, never an error) |
| Chromosomes.ToString | GeneticAlgorithm/Chromosome.cs:52-60 | the text has the chromosome's length, holds only '0'/'1', and character i is '1' exactly when bit i is set |
| Chromosomes.FromBitArray | GeneticAlgorithm/Chromosome.cs:47-50 | the chromosome has the array's length and bit i equals element i; being a value, it is unaffected by later writes to the array |
| Chromosomes.SubChromosome | GeneticAlgorithm/Chromosome.cs:32-40 | fails exactly when the size end−start+1 is negative (array of negative size) or positive with start < 0 or end ≥ length (bit index out of range); on success has length end−start+1 and bit k is original bit start+k, both ends included |
| Chromosomes.StringRoundTrip | GeneticAlgorithm/Chromosome.cs:16-24 | building from a '0'/'1' string and rendering gives the string back |
| Chromosomes.ChromosomeRoundTrip | GeneticAlgorithm/Chromosome.cs:52-60 | rendering and building from the text gives the same bits |
| Chromosomes.SplitRebuilds | GeneticAlgorithm/Chromosome.cs:32-40 | for every 0 ≤ p ≤ length, the sub-ranges [0, p−1] and [p, length−1] both succeed and their rendered texts joined rebuild the chromosome |
| BinaryCodec.DecToBinary | GeneticAlgorithm/GeneticAlgorithmSimple.cs:109-118 | the result holds only '0'/'1', is empty exactly for 0, starts with '1' otherwise, and its length L satisfies 2^(L−1) ≤ n < 2^L |
| BinaryCodec.BinaryToDec | GeneticAlgorithm/GeneticAlgorithmSimple.cs:120-132 | the value of a string of length len is below 2^len |
| BinaryCodec.MsbFirst | GeneticAlgorithm/GeneticAlgorithmSimple.cs:120-132 | the first character is the most significant digit: it is worth 2^(length of the rest) |
| BinaryCodec.BinaryToDecAppend | GeneticAlgorithm/GeneticAlgorithmSimple.cs:120-132 | the value of a + b is value(a)·2^|b| + value(b) |
| BinaryCodec.DecToBinaryRoundTrip | GeneticAlgorithm/GeneticAlgorithmSimple.cs:109-132 | parsing the binary string of n gives n |
| BinaryCodec.BinaryToDecInjective | GeneticAlgorithm/GeneticAlgorithmSimple.cs:120-132 | two '0'/'1' strings of equal length and equal value are equal |
| BinaryCodec.DecToBinaryIsShortest | GeneticAlgorithm/GeneticAlgorithmSimple.cs:109-118 | the binary string of n fits in len characters exactly when n < 2^len |
| BinaryCodec.PadLeft | GeneticAlgorithm/GeneticAlgorithmSimple.cs:78-86 | the result has max(len, original length) characters: zeros followed by the original string, which is never cut |
| BinaryCodec.PadLeftKeepsValue | GeneticAlgorithm/GeneticAlgorithmSimple.cs:78-86 | left padding with '0' does not change the parsed value |
| BinaryCodec.PadDecToBinaryOfValue | GeneticAlgorithm/GeneticAlgorithmSimple.cs:75-86 | a '0'/'1' string is reproduced exactly by padding the binary string of its value to its length |
| BinaryCodec.DecToBinaryLoop | GeneticAlgorithm/GeneticAlgorithmSimple.cs:109-118 | the source's prepend-and-halve loop computes the binary string |
| BinaryCodec.BinaryToDecLoop | GeneticAlgorithm/GeneticAlgorithmSimple.cs:120-132 | the source's sum of 2^(len−i−1) over the '1' positions computes the value |
| Encoding.GetEncodeLen | GeneticAlgorithm/GeneticAlgorithmSimple.cs:59-68 | the length L satisfies 2^L ≥ (max−min)/precision + 1 and, when L > 0, 2^(L−1) < (max−min)/precision + 1 |
| Encoding.EncodeLenIsLeast | GeneticAlgorithm/GeneticAlgorithmSimple.cs:59-68 | no length with room for all (max−min)/precision + 1 levels is shorter |
| Encoding.EncodeLenExact | GeneticAlgorithm/GeneticAlgorithmSimple.cs:59-68 | a positive L with 2^(L−1) < (max−min)/precision + 1 ≤ 2^L is exactly the computed segment length |
| Encoding.SourceSegmentLengths | GeneticAlgorithm/GeneticAlgorithmSimple.cs:35-51 | the configured domains give segment lengths 18 for x1 and 15 for x2 |
| Encoding.Encode | GeneticAlgorithm/GeneticAlgorithmSimple.cs:75-92 | when both integers fit their segments, the chromosome has exactly len1 + len2 bits |
| Encoding.PaddedSegment | GeneticAlgorithm/GeneticAlgorithmSimple.cs:75-86 | a number below 2^len pads to a '0'/'1' string of exactly len characters whose value is the number |
| Encoding.Decode | GeneticAlgorithm/GeneticAlgorithmSimple.cs:95-101 | succeeds exactly when the chromosome has at least len1 + len2 bits (otherwise an index error), and the two values fit their segments |
| Encoding.DecodeEncode | GeneticAlgorithm/GeneticAlgorithmSimple.cs:70-101 | decoding an encoded pair of fitting integers returns that pair |
| Encoding.EncodeDecode | GeneticAlgorithm/GeneticAlgorithmSimple.cs:70-101 | encoding what a chromosome of length len1 + len2 decodes to rebuilds the identical bits |
| Quantization.Quantize | GeneticAlgorithm/GeneticAlgorithmSimple.cs:72-76 | a value of [min, max] is mapped to a level in [0, 2^L − 1] |
| Quantization.Width | GeneticAlgorithm/GeneticAlgorithmSimple.cs:103-104 | one level step is positive and 2^L − 1 steps span exactly max − min |
| Quantization.Dequantize | GeneticAlgorithm/GeneticAlgorithmSimple.cs:103-104 | level 0 maps back to min, the top level 2^L − 1 to max, and every level of a segment into [min, max] |
| Quantization.QuantizeDequantize | GeneticAlgorithm/GeneticAlgorithmSimple.cs:70-107 | the real of any level maps back to that same level |
| Quantization.DequantizeQuantize | GeneticAlgorithm/GeneticAlgorithmSimple.cs:70-107 | the real of a value's level lies at most one level step below the value: y ≤ x < y + step |
| Quantization.ToScaled | GeneticAlgorithm/GeneticAlgorithmSimple.cs:72-76 | the levels of a point of the domain fit their segments |
| Quantization.EncodePoint | GeneticAlgorithm/GeneticAlgorithmSimple.cs:70-93 | a point of the domain encodes to exactly len1 + len2 bits |
| Quantization.DecodePoint | GeneticAlgorithm/GeneticAlgorithmSimple.cs:95-107 | succeeds exactly when the chromosome has at least len1 + len2 bits (otherwise an index error), and then yields a point of the domain |
| Quantization.PointRoundTrip | GeneticAlgorithm/GeneticAlgorithmSimple.cs:70-107 | decoding an encoded point gives, per variable, the level value at most one step below it |
| Quantization.PointEncodeDecode | GeneticAlgorithm/GeneticAlgorithmSimple.cs:70-107 | re-encoding the point a full-length chromosome decodes to rebuilds the identical bits |
| Sampling.SampleX1AsWritten | GeneticAlgorithm/GeneticAlgorithmSimple.cs:180 | a draw in [0, 1) gives an x1 in [−3.0, 5.8), a strict part of the x1 domain [−3.0, 12.1] |
| Sampling.SampleX1AsWrittenMisses | GeneticAlgorithm/GeneticAlgorithmSimple.cs:180 | the source's x1 draw lies in [−3.0, 5.8), so no x1 in [5.8, 12.1] of the domain is ever drawn |
| Sampling.SampleX1 | GeneticAlgorithm/GeneticAlgorithmSimple.cs:180 | the corrected x1 draw lies in [−3.0, 12.1) |
| Sampling.SampleX1Covers | GeneticAlgorithm/GeneticAlgorithmSimple.cs:180 | every x1 of [−3.0, 12.1) is the corrected draw of some value of the generator |
| Sampling.SampleX2 | GeneticAlgorithm/GeneticAlgorithmSimple.cs:181 | the x2 draw lies in [4.1, 5.8) |
| Sampling.SamplePoint | GeneticAlgorithm/GeneticAlgorithmSimple.cs:180-183 | with the source's x1 draw, the levels of a drawn initial point fit their segments and the x1 level stands for a real below 5.8 |
| Randomness.RandomNumber | GeneticAlgorithm/GeneticAlgorithmSimple.cs:134-138 | a draw in [0, 1) scaled to [min, max) lands in [min, max), never at max |
| Randomness.Truncate | GeneticAlgorithm/GeneticAlgorithmSimple.cs:201-204 | the cast drops the fraction toward zero: for x ≥ 0 the result r has r ≤ x < r + 1, for x < 0 it has r − 1 < x ≤ r |
| Randomness.DrawIndexRange | GeneticAlgorithm/GeneticAlgorithmSimple.cs:134-138 | a draw scaled to [lo, hi) and truncated lies in [lo, hi), never at hi |
| Operators.ParentNeverLast | GeneticAlgorithm/GeneticAlgorithmSimple.cs:198-203 | a parent index lies in [0, Count − 2]: the last pool member is never a parent |
| Operators.SmallPoolHasOneParent | GeneticAlgorithm/GeneticAlgorithmSimple.cs:198-203 | from a pool of at most two members every draw gives index 0 |
| Operators.DistinctParentsNeedThree | GeneticAlgorithm/GeneticAlgorithmSimple.cs:198-203 | two distinct parent indices are only ever drawn from a pool of at least three members |
| Operators.CrossPointRange | GeneticAlgorithm/GeneticAlgorithmSimple.cs:204 | the crossover point lies in [0, L]; for L ≥ 4 in [1, L − 3], and it is 1 for L = 3 |
| Operators.Splice | GeneticAlgorithm/GeneticAlgorithmSimple.cs:205-206 | rendering bits [0, p−1] of one parent and [p, L−1] of the other and parsing the joined text gives parent one's bits [0, p) followed by parent two's bits [p, L) |
| Operators.TrialChildren | GeneticAlgorithm/GeneticAlgorithmSimple.cs:196-209 | a trial adds nothing when its draw exceeds the crossover probability; otherwise two children of length L, which are the parents at the trial's two drawn indices exchanging tails at the trial's drawn point. The parents are distinct and never the last member, and for L ≥ 4 the point lies in [1, L − 3] |
| Operators.Firing | GeneticAlgorithm/GeneticAlgorithmSimple.cs:194-196 | as many entries as the fired count, each a trial whose draw is at most the crossover probability; no trials give none, and one trial gives itself exactly when it fires |
| Operators.FiringAppend | GeneticAlgorithm/GeneticAlgorithmSimple.cs:194-196 | the firing trials of a concatenation are those of the first part followed by those of the second, so with the one-trial case they are the firing trials, each once, in trial order |
| Operators.TrialMatesAreMated | GeneticAlgorithm/GeneticAlgorithmSimple.cs:198-206 | the children of a firing, well-formed trial are a mated pair: two distinct parents, neither the last member, exchanging tails at a point in [1, L − 3] when L ≥ 4 |
| Operators.PairedAreMated | GeneticAlgorithm/GeneticAlgorithmSimple.cs:194-210 | offspring paired with firing, well-formed trials come, pair after pair, as mated pairs of the pool |
| Operators.CrossoverTrials | GeneticAlgorithm/GeneticAlgorithmSimple.cs:194-210 | the offspring are twice the number of firing trials, all of length L; children 2m and 2m + 1 are the mated pair of the m-th firing trial's drawn parents and point |
| Operators.Crossover | GeneticAlgorithm/GeneticAlgorithmSimple.cs:189-213 | with Count/2 trials the offspring count is even and at most 2·(Count/2); every child has length L, pair m is the tail exchange of the m-th firing trial's drawn parents at its drawn point, and so the offspring are all mated pairs of the pool |
| Operators.AllTrialsFire | GeneticAlgorithm/GeneticAlgorithmSimple.cs:194-196 | with crossover probability at least 1 every trial fires |
| Operators.NoTrialFires | GeneticAlgorithm/GeneticAlgorithmSimple.cs:194-196 | with crossover probability below every draw no trial fires |
| Operators.MatesConserveLoci | GeneticAlgorithm/GeneticAlgorithmSimple.cs:205-206 | at every position the two children's bits are the two parents' bits; child one keeps parent one's bit exactly before p or where the parents agree |
| Operators.MutateOne | GeneticAlgorithm/GeneticAlgorithmSimple.cs:222-230 | the copy has the same length and bit j differs from the input exactly when j is among the first L bits and its draw is ≤ the mutation probability |
| Operators.Mutation | GeneticAlgorithm/GeneticAlgorithmSimple.cs:215-234 | one offspring per input, in order, each of its input's length; bit j of offspring k differs from input k exactly when j < L and draw (k, j) ≤ the mutation probability |
| Operators.MutationBelowEveryDraw | GeneticAlgorithm/GeneticAlgorithmSimple.cs:225-228 | with the mutation probability below every draw the offspring equal the inputs |
| Operators.MutationCertain | GeneticAlgorithm/GeneticAlgorithmSimple.cs:225-228 | with mutation probability at least 1 every one of the first L bits flips |
| Operators.MutationInvolution | GeneticAlgorithm/GeneticAlgorithmSimple.cs:222-230 | mutating twice with the same draws restores the inputs |
| Roulette.Normalize | GeneticAlgorithm/GeneticAlgorithmSimple.cs:248-253 | each probability times the total is the original value |
| Roulette.Cdf | GeneticAlgorithm/GeneticAlgorithmSimple.cs:255-260 | one more entry than probabilities, first entry 0, each next entry the previous plus the matching probability |
| Roulette.CdfEndsAtSum | GeneticAlgorithm/GeneticAlgorithmSimple.cs:255-260 | the last running sum is the sum of the probabilities |
| Roulette.SumNormalized | GeneticAlgorithm/GeneticAlgorithmSimple.cs:248-253 | the normalised values sum to the values' sum divided by the total |
| Roulette.CdfOfNormalizedEndsAtOne | GeneticAlgorithm/GeneticAlgorithmSimple.cs:248-260 | with a non-zero fitness sum the distribution ends exactly at 1 |
| Roulette.CdfMonotone | GeneticAlgorithm/GeneticAlgorithmSimple.cs:255-260 | with non-negative probabilities the running sums never decrease |
| Roulette.Fitnesses | GeneticAlgorithm/GeneticAlgorithmSimple.cs:241-246 | one fitness value per pool member |
| Roulette.FitnessOfEncoded | GeneticAlgorithm/GeneticAlgorithmSimple.cs:242-246 | a pool member that is the encoding of a fitting pair is scored at exactly that pair: the decode inside the fitness loop returns what was encoded |
| Roulette.IntervalIsShare | GeneticAlgorithm/GeneticAlgorithmSimple.cs:248-260 | member j's interval has width value[j] / sum, its share of the total fitness |
| Roulette.PickFrom | GeneticAlgorithm/GeneticAlgorithmSimple.cs:266-272 | the scan from j returns the first interval at or after j containing r, or the end index when none does |
| Roulette.Pick | GeneticAlgorithm/GeneticAlgorithmSimple.cs:264-272 | the chosen index j is the first with cdf[j] ≤ r < cdf[j+1]; the end index means no interval contains r |
| Roulette.PickFinds | GeneticAlgorithm/GeneticAlgorithmSimple.cs:266-273 | a draw between the first and last entry always finds an interval |
| Roulette.Selection | GeneticAlgorithm/GeneticAlgorithmSimple.cs:236-277 | succeeds exactly when every draw finds an interval (else the index error of reading past the pool); returns popSize members, member k being the pool entry whose interval contains draw k |
| Roulette.SelectionSucceeds | GeneticAlgorithm/GeneticAlgorithmSimple.cs:262-274 | with a non-empty pool, non-zero fitness sum and draws in [0, 1), selection succeeds and every selected chromosome is a pool member |
| Roulette.SumPositive | GeneticAlgorithm/GeneticAlgorithmSimple.cs:248 | a non-empty list of positive values has a positive sum |
| Roulette.RouletteExample | GeneticAlgorithm/GeneticAlgorithmSimple.cs:248-272 | values [1, 2, 3, 4] sum to 10; draw 0.05 picks index 0 and draw 0.95 picks index 3 |
| History.LocalBest | GeneticAlgorithm/GeneticAlgorithmSimple.cs:283-296 | the running maximum is ≥ every value and ≥ the smallest double; it is the smallest double when no value beat it, otherwise the value at the first index attaining it |
| History.Fitness | GeneticAlgorithm/GeneticAlgorithmSimple.cs:279-308 | each history grows by exactly one entry keeping its prefix; the local entry is ≥ every pool fitness and is attained or the smallest double; the best value never decreases, is appended to the global history, and when it changes the record holds a decoded pool member that scores it |
| History.InitialConsistent | GeneticAlgorithm/GeneticAlgorithmSimple.cs:25-31 | the empty histories with the smallest double as best value and no optimum satisfy the history invariant |
| History.FitnessKeepsConsistent | GeneticAlgorithm/GeneticAlgorithmSimple.cs:297-304 | a fitness pass keeps the histories equally long, the global history non-decreasing and never below the local one, ending at the best value that the recorded optimum scores |
| Engine.Initial | GeneticAlgorithm/GeneticAlgorithmSimple.cs:173-187 | one chromosome per pair of draws, all of length len1 + len2. Each decodes back to the levels of its point, drawn as the source draws it: x1 from [−3.0, 5.8), x2 from [4.1, 5.8). So no initial x1 level stands for a real of 5.8 or more |
| Engine.Merged | GeneticAlgorithm/GeneticAlgorithmSimple.cs:148-151 | the working set starts with the population and has between 2·popSize and 3·popSize members, all of length L |
| Engine.MergedCrossover | GeneticAlgorithm/GeneticAlgorithmSimple.cs:148-150 | the members after the population and before the last popSize are the crossover offspring: pair m is the tail exchange of the m-th firing trial's drawn parents at its drawn point |
| Engine.MergedMutation | GeneticAlgorithm/GeneticAlgorithmSimple.cs:149-151 | the last popSize members are the mutation offspring: member k differs from population member k at bit j exactly when draw (k, j) is at most the mutation probability |
| Engine.Step | GeneticAlgorithm/GeneticAlgorithmSimple.cs:146-155 | a generation returns popSize chromosomes of length L drawn from the merged pool, adds one history entry and keeps the history invariant |
| Engine.StepEvaluates | GeneticAlgorithm/GeneticAlgorithmSimple.cs:152 | the generation's record is the fitness pass over the merged pool: the earlier local entries are kept, and the new one is at least every merged member's fitness and at most the best value |
| Engine.StepSelects | GeneticAlgorithm/GeneticAlgorithmSimple.cs:153 | with a positive objective the merged pool's fitness sum is positive, and the next population is exactly the successful roulette selection from the merged pool with the generation's selection draws (empty when popSize is 0) |
| Engine.Generations | GeneticAlgorithm/GeneticAlgorithmSimple.cs:146-155 | n generations keep the population size and length and add n history entries |
| Engine.Start | GeneticAlgorithm/GeneticAlgorithmSimple.cs:142-144 | the evaluated initial population has popSize members of length L, one history entry, and satisfies the history invariant |
| Engine.Run | GeneticAlgorithm/GeneticAlgorithmSimple.cs:140-156 | the first `Run` of a new engine, starting from the empty histories and the smallest double as best value (the instance fields of lines 25-33, which `Run` never resets; the program runs it once on a new instance): after maxGeneration generations the population has popSize members of length L and the local history has maxGeneration + 1 entries; the history invariant holds: the global history is as long, non-decreasing, never below the local one, ends at the best value, and the recorded optimum scores that value |

## Left out

- `WriteResult` is not modelled. It only writes the histories to a file.
- The logger and the `ActionTrace` wrappers are not modelled. They only log and time each operator.
- `Program.cs` is not modelled. It is the console entry point.
- `ValueFunction` is not modelled. It is double-precision trigonometry, and it enters only through the parameter
  `objective`. The record therefore stores the optimum as its integer pair; `Dequantize` gives the source's reals.
- `Math.Log`, `Math.Pow` and double arithmetic are not modelled as floating point. `GetEncodeLen`, `Quantize` and
  `Dequantize` use exact reals. The source's rounding cannot move the segment lengths for the configured domains,
  but it can move a truncated level by one.
- Quantization.DecodePoint: requires segments of at least one bit. With L = 0 the source divides by 2^0 − 1 = 0,
  which gives NaN or infinities in floating point.
- Quantization.ToScaled: requires a point of the domain. Outside it the source's level can be negative, and its
  binary string then contains '-' characters.
- The shared `Random` instance is not modelled. Every draw is an explicit parameter in `[0, 1)`. A crossover trial
  carries only the draws of the last round of its resampling loop; earlier rounds drew equal indices and only
  consume draws.
- BinaryCodec.DecToBinary: takes a natural number. The source's `%` on a negative int would emit '-' characters.
  `Encode` only converts non-negative scaled values.
- BinaryCodec.BinaryToDec: unbounded. The source's `(int)Math.Pow` overflows for strings longer than 31
  characters; the segments here have 18 and 15.
- Chromosomes.FromString: a string is a sequence of Unicode scalar values, where C# counts UTF-16 code units. A
  character outside the Basic Multilingual Plane gives one clear bit here but two in the source, and a lone
  surrogate cannot be written at all. The engine only builds chromosomes from '0'/'1' strings, where the two agree.
- Chromosomes.SubChromosome: `end − start + 1` is not wrapped at 32 bits.
- Operators.Crossover: requires L ≥ 1. With L = 0 the drawn point can be −1, which the source rejects with an
  exception; the configured L is 33.
- Operators.TrialChildren: a firing trial's parent draws must give distinct indices. With a pool of two or fewer
  (`DistinctParentsNeedThree`) no such draws exist, and the source's resampling loop never ends.
- Roulette.Selection: requires a non-zero fitness sum for a non-empty pool. Dividing by a zero sum yields
  NaN or infinities in floating point, which are not modelled.
- History.Fitness: requires the best value to be at least the smallest double. Every record the engine
  builds satisfies this.
- Engine.Run: requires the objective to be positive on every decodable pair. The source's objective is at
  least 21.5 − 12.1 − 5.8 = 3.6 on its domain.
- The `Genes` property exposes the mutable bit array. In the model chromosomes are values, so no operation can
  change a chromosome after it is built; `SubChromosome` and mutation only read their input.
- Behaviours of the code a reader might not expect, which the model keeps:
  - A string with characters other than '0'/'1' is not rejected; those characters become clear bits.
  - An empty range (end = start − 1) is not an error. A negative size raises the negative-size error.
  - The crossover point never reaches L − 2.
  - The last pool member is never a crossover parent.
  - Probabilities, population size and bounds are not validated, and a zero or negative fitness sum is not
    rejected before selection divides by it.

## Findings

| source | as written | input that shows it | evidently intended | confidence | as-written member | corrected member |
|---|---|---|---|---|---|---|
| GeneticAlgorithm/GeneticAlgorithmSimple.cs:180 | the initial x1 is drawn from [MIN_X1, MAX_X2) = [−3.0, 5.8) | every draw u in [0, 1) gives x1 = 8.8·u − 3.0 < 5.8, so for example x1 = 10.0 is never an initial value | x1 drawn from [MIN_X1, MAX_X1) = [−3.0, 12.1) | high, not executed | Sampling.SampleX1AsWrittenMisses | Sampling.SampleX1 |

=== FILE: binary.dfy ===
/**
 Conversion between natural numbers and their most-significant-bit-first
 '0'/'1' strings, left padding with '0', and the powers of two they rest on.
 */
module BinaryCodec {

  import opened Chromosomes

  function Pow2(n: nat): (p: nat)
    ensures p >= 1
  {
    if n == 0 then 1 else 2 * Pow2(n - 1)
  }

  lemma {:induction false} Pow2Monotone(a: nat, b: nat)
    requires a <= b
    ensures Pow2(a) <= Pow2(b)
    decreases b
  {
    if a < b {
      Pow2Monotone(a, b - 1);
    }
  }

  /** The digit a character stands for: only '1' counts as one. */
  function Bit(ch: char): nat
  {
    if ch == '1' then 1 else 0
  }

  /** The binary string of n without leading zeros, built by repeatedly
      prepending n % 2 and halving; zero gives the empty string. */
  function DecToBinary(n: nat): (s: string)
    ensures IsBinary(s)
    ensures s == [] <==> n == 0
    ensures s != [] ==> s[0] == '1'
    ensures n < Pow2(|s|)
    ensures s != [] ==> Pow2(|s| - 1) <= n
    decreases n
  {
    if n == 0 then "" else DecToBinary(n / 2) + [if n % 2 == 1 then '1' else '0']
  }

  /** The value of a string read most significant character first; any
      character other than '1' counts as a zero. */
  function BinaryToDec(s: string): (n: nat)
    ensures n < Pow2(|s|)
  {
    if s == [] then 0 else 2 * BinaryToDec(s[..|s| - 1]) + Bit(s[|s| - 1])
  }

  /** Prepends '0' until the string has at least len characters; a longer
      string is left as it is. */
  function PadLeft(s: string, len: nat): (r: string)
    ensures |r| == if |s| < len then len else |s|
    ensures r[|r| - |s|..] == s
    ensures forall i :: 0 <= i < |r| - |s| ==> r[i] == '0'
  {
    if |s| < len then seq(len - |s|, _ => '0') + s else s
  }

  /** Splitting a string anywhere: the head is worth 2^|tail| per unit. */
  lemma {:induction false} BinaryToDecAppend(a: string, b: string)
    ensures BinaryToDec(a + b) == BinaryToDec(a) * Pow2(|b|) + BinaryToDec(b)
    decreases |b|
  {
    if b == [] {
      assert a + b == a;
    } else {
      var b' := b[..|b| - 1];
      assert (a + b)[..|a + b| - 1] == a + b';
      BinaryToDecAppend(a, b');
      assert b[..|b| - 1] == b';
      var x, y, q := BinaryToDec(a), BinaryToDec(b'), Pow2(|b'|);
      calc {
        BinaryToDec(a + b);
        2 * BinaryToDec(a + b') + Bit(b[|b| - 1]);
        2 * (x * q + y) + Bit(b[|b| - 1]);
        { Double(x, q); }
        x * (2 * q) + (2 * y + Bit(b[|b| - 1]));
        x * Pow2(|b|) + BinaryToDec(b);
      }
    }
  }

  lemma Double(x: nat, q: nat)
    ensures 2 * (x * q) == x * (2 * q)
  {
  }

  lemma ShiftIn(x: nat, b: nat, q: nat)
    ensures (2 * x + b) * q == x * (2 * q) + b * q
  {
  }

  /** The first character of a string is its most significant digit. */
  lemma MsbFirst(ch: char, s: string)
    ensures BinaryToDec([ch] + s) == Bit(ch) * Pow2(|s|) + BinaryToDec(s)
  {
    BinaryToDecAppend([ch], s);
    assert [ch][..0] == [];
    assert BinaryToDec([ch]) == Bit(ch);
  }

  /** Leading zeros do not change the value. */
  lemma PadLeftKeepsValue(s: string, len: nat)
    ensures BinaryToDec(PadLeft(s, len)) == BinaryToDec(s)
  {
    var r := PadLeft(s, len);
    var zeros := r[..|r| - |s|];
    assert r == zeros + s;
    ZerosAreZero(zeros);
    BinaryToDecAppend(zeros, s);
    assert BinaryToDec(zeros) * Pow2(|s|) == 0;
  }

  lemma {:induction false} ZerosAreZero(z: string)
    requires forall i :: 0 <= i < |z| ==> z[i] == '0'
    ensures BinaryToDec(z) == 0
  {
    if z != [] {
      ZerosAreZero(z[..|z| - 1]);
    }
  }

  /** Parsing the binary string of n gives n back. */
  lemma {:induction false} DecToBinaryRoundTrip(n: nat)
    ensures BinaryToDec(DecToBinary(n)) == n
    decreases n
  {
    if n != 0 {
      var s := DecToBinary(n);
      assert s[..|s| - 1] == DecToBinary(n / 2);
      DecToBinaryRoundTrip(n / 2);
    }
  }

  /** Two '0'/'1' strings of the same length with the same value are equal. */
  lemma {:induction false} BinaryToDecInjective(a: string, b: string)
    requires IsBinary(a) && IsBinary(b) && |a| == |b|
    requires BinaryToDec(a) == BinaryToDec(b)
    ensures a == b
  {
    if a != [] {
      var n := |a|;
      assert Bit(a[n - 1]) == Bit(b[n - 1]);
      BinaryToDecInjective(a[..n - 1], b[..n - 1]);
      assert a == a[..n - 1] + [a[n - 1]];
      assert b == b[..n - 1] + [b[n - 1]];
    }
  }

  /** A number below 2^len has a binary string of at most len characters. */
  lemma DecToBinaryFits(n: nat, len: nat)
    requires n < Pow2(len)
    ensures |DecToBinary(n)| <= len
  {
    var s := DecToBinary(n);
    if s != [] {
      Pow2Below(|s| - 1, len);
    }
  }

  lemma Pow2Below(a: nat, b: nat)
    requires Pow2(a) < Pow2(b)
    ensures a < b
  {
    if b <= a {
      Pow2Monotone(b, a);
    }
  }

  /** Padding a '0'/'1' string keeps it a '0'/'1' string. */
  lemma PadLeftIsBinary(s: string, len: nat)
    requires IsBinary(s)
    ensures IsBinary(PadLeft(s, len))
  {
    var t := PadLeft(s, len);
    forall i | 0 <= i < |t|
      ensures t[i] == '0' || t[i] == '1'
    {
      if i >= |t| - |s| {
        assert t[i] == t[|t| - |s|..][i - (|t| - |s|)];
      }
    }
  }

  /** Padding the binary string of a '0'/'1' string's value back to its
      length reproduces the string exactly. */
  lemma PadDecToBinaryOfValue(s: string)
    requires IsBinary(s)
    ensures PadLeft(DecToBinary(BinaryToDec(s)), |s|) == s
  {
    var v := BinaryToDec(s);
    DecToBinaryFits(v, |s|);
    var t := PadLeft(DecToBinary(v), |s|);
    PadLeftKeepsValue(DecToBinary(v), |s|);
    DecToBinaryRoundTrip(v);
    PadLeftIsBinary(DecToBinary(v), |s|);
    BinaryToDecInjective(t, s);
  }

  /** The binary string of n is the shortest string that can hold n. */
  lemma DecToBinaryIsShortest(n: nat, len: nat)
    ensures |DecToBinary(n)| <= len <==> n < Pow2(len)
  {
    var s := DecToBinary(n);
    if |s| <= len {
      Pow2Monotone(|s|, len);
    } else {
      Pow2Monotone(len, |s| - 1);
    }
  }

  lemma PrefixStep(s: string, i: nat)
    requires i < |s|
    ensures BinaryToDec(s[..i + 1]) == 2 * BinaryToDec(s[..i]) + Bit(s[i])
  {
    assert s[..i + 1][..i] == s[..i];
  }

  /** The loop of the source: prepend n % 2 while n is not zero, then halve. */
  method DecToBinaryLoop(num: nat) returns (str: string)
    ensures str == DecToBinary(num)
  {
    str := "";
    var n := num;
    while n != 0
      invariant DecToBinary(num) == DecToBinary(n) + str
      decreases n
    {
      str := [if n % 2 == 1 then '1' else '0'] + str;
      n := n / 2;
    }
  }

  /** The loop of the source: add 2^(len-i-1) for every '1' at position i. */
  method BinaryToDecLoop(str: string) returns (num: nat)
    ensures num == BinaryToDec(str)
  {
    num := 0;
    var len := |str|;
    var i := 0;
    while i < len
      invariant 0 <= i <= len
      invariant num == BinaryToDec(str[..i]) * Pow2(len - i)
    {
      PrefixStep(str, i);
      var q := Pow2(len - i - 1);
      assert Pow2(len - i) == 2 * q;
      ShiftIn(BinaryToDec(str[..i]), Bit(str[i]), q);
      if str[i] == '1' {
        num := num + Pow2(len - i - 1);
      }
      i := i + 1;
    }
    assert str[..len] == str;
  }
}

=== FILE: chromosome.dfy ===
/**
 A chromosome is an immutable, fixed-length sequence of bits. It can be built
 from a '0'/'1' string, from a bit sequence, or as a copy of a mutable bit array;
 sub-ranges can be extracted (both ends included) and it renders back to a
 '0'/'1' string.
 */
module Chromosomes {

  import opened Outcomes

  /** The genes; the datatype constructor is the bit-sequence constructor. */
  datatype Chromosome = Chromosome(genes: seq<bool>)

  /** Every member of a population has exactly len bits. */
  predicate AllOfLength(cs: seq<Chromosome>, len: nat)
  {
    forall k :: 0 <= k < |cs| ==> |cs[k].genes| == len
  }

  /** Every member of a population has at least len bits. */
  predicate AllAtLeast(cs: seq<Chromosome>, len: nat)
  {
    forall k :: 0 <= k < |cs| ==> |cs[k].genes| >= len
  }

  predicate IsBinary(s: string)
  {
    forall i :: 0 <= i < |s| ==> s[i] == '0' || s[i] == '1'
  }

  /** Builds a chromosome from a string: bit i is set iff character i is '1';
      any other character (not only '0') gives a clear bit. */
  function FromString(s: string): (c: Chromosome)
    ensures |c.genes| == |s|
    ensures forall i :: 0 <= i < |s| ==> (c.genes[i] <==> s[i] == '1')
  {
    Chromosome(seq(|s|, i requires 0 <= i < |s| => s[i] == '1'))
  }

  /** Renders the bits in index order, '1' for a set bit and '0' otherwise. */
  function ToString(c: Chromosome): (s: string)
    ensures |s| == |c.genes|
    ensures IsBinary(s)
    ensures forall i :: 0 <= i < |s| ==> (s[i] == '1' <==> c.genes[i])
  {
    seq(|c.genes|, i requires 0 <= i < |c.genes| => if c.genes[i] then '1' else '0')
  }

  /** Copies a mutable bit array into a chromosome, bit by bit. The result is a
      value, so later writes to the array cannot reach it. */
  method FromBitArray(bits: array<bool>) returns (c: Chromosome)
    ensures |c.genes| == bits.Length
    ensures forall i :: 0 <= i < bits.Length ==> c.genes[i] == bits[i]
  {
    var copied: seq<bool> := [];
    var i := 0;
    while i < bits.Length
      invariant 0 <= i <= bits.Length
      invariant |copied| == i
      invariant forall k :: 0 <= k < i ==> copied[k] == bits[k]
    {
      copied := copied + [bits[i]];
      i := i + 1;
    }
    c := Chromosome(copied);
  }

  /** The bits start..end, both ends included. A negative size is an error;
      an empty range succeeds whatever its ends; otherwise every index read
      must lie inside the chromosome. */
  function SubChromosome(c: Chromosome, start: int, end: int): (r: Result<Chromosome>)
    ensures r.Err? <==> end - start + 1 < 0 || (end - start + 1 > 0 && (start < 0 || end >= |c.genes|))
    ensures end - start + 1 < 0 ==> r == Err(NegativeSize)
    ensures r.Ok? ==> |r.value.genes| == end - start + 1
    ensures r.Ok? ==> forall k :: 0 <= k < |r.value.genes| ==> r.value.genes[k] == c.genes[start + k]
  {
    var size := end - start + 1;
    if size < 0 then Err(NegativeSize)
    else if size == 0 then Ok(Chromosome([]))
    else if start < 0 || end >= |c.genes| then Err(IndexOutOfRange)
    else Ok(Chromosome(c.genes[start..end + 1]))
  }

  /** Parsing a '0'/'1' string and rendering it gives the string back. */
  lemma StringRoundTrip(s: string)
    requires IsBinary(s)
    ensures ToString(FromString(s)) == s
  {
  }

  /** Rendering a chromosome and parsing the text gives the same bits. */
  lemma ChromosomeRoundTrip(c: Chromosome)
    ensures FromString(ToString(c)) == c
  {
  }

  /** Joining the renderings of the two halves of a split at p rebuilds the
      chromosome, for any split point from 0 to its length. */
  lemma SplitRebuilds(c: Chromosome, p: int)
    requires 0 <= p <= |c.genes|
    ensures SubChromosome(c, 0, p - 1).Ok? && SubChromosome(c, p, |c.genes| - 1).Ok?
    ensures FromString(ToString(SubChromosome(c, 0, p - 1).value)
                       + ToString(SubChromosome(c, p, |c.genes| - 1).value)) == c
  {
    var head := SubChromosome(c, 0, p - 1).value;
    var tail := SubChromosome(c, p, |c.genes| - 1).value;
    var joined := FromString(ToString(head) + ToString(tail));
    assert joined.genes == c.genes by {
      forall k | 0 <= k < |c.genes|
        ensures joined.genes[k] == c.genes[k]
      {
        if k < p {
          assert (ToString(head) + ToString(tail))[k] == ToString(head)[k];
        } else {
          assert (ToString(head) + ToString(tail))[k] == ToString(tail)[k - p];
        }
      }
    }
  }
}

=== FILE: encoding.dfy ===
/**
 The integer and bit side of the encoding of the two variables: the number of
 bits per variable, and the translation between a pair of scaled integers and
 a chromosome holding their left-padded binary strings one after the other.
 */
module Encoding {

  import opened Outcomes
  import opened Chromosomes
  import opened BinaryCodec

  /** The two scaled integers a chromosome stands for (the source's decoded
      pair, before the linear rescaling to real values). */
  datatype Scaled = Scaled(x1: nat, x2: nat)

  /** The bit lengths of the two gene segments. */
  datatype Layout = Layout(len1: nat, len2: nat)

  function TotalLength(lay: Layout): nat
  {
    lay.len1 + lay.len2
  }

  /** Both scaled integers fit in their segments. */
  predicate Fits(v: Scaled, lay: Layout)
  {
    v.x1 < Pow2(lay.len1) && v.x2 < Pow2(lay.len2)
  }

  /** The smallest k' >= k with x <= 2^k', searching upward from k. */
  function CeilLog2From(x: real, k: nat): (r: nat)
    requires x >= 1.0
    requires k == 0 || (Pow2(k - 1) as real) < x
    ensures k <= r
    ensures x <= Pow2(r) as real
    ensures r > 0 ==> (Pow2(r - 1) as real) < x
    decreases x.Floor - Pow2(k)
  {
    if x <= Pow2(k) as real then k else CeilLog2From(x, k + 1)
  }

  /** The bit length of a segment: the ceiling of log2((max - min) / precision + 1),
      that is the least L with 2^L >= (max - min) / precision + 1. */
  function GetEncodeLen(min: real, max: real, precision: real): (len: nat)
    requires precision > 0.0 && min <= max
    ensures (max - min) / precision + 1.0 <= Pow2(len) as real
    ensures len > 0 ==> (Pow2(len - 1) as real) < (max - min) / precision + 1.0
  {
    CeilLog2From((max - min) / precision + 1.0, 0)
  }

  /** No shorter segment can hold all quantisation levels. */
  lemma EncodeLenIsLeast(min: real, max: real, precision: real, other: nat)
    requires precision > 0.0 && min <= max
    requires (max - min) / precision + 1.0 <= Pow2(other) as real
    ensures GetEncodeLen(min, max, precision) <= other
  {
    var len := GetEncodeLen(min, max, precision);
    if len > 0 && other <= len - 1 {
      Pow2Monotone(other, len - 1);
    }
  }

  /** The segment length is the L with 2^(L-1) < levels <= 2^L. */
  lemma EncodeLenExact(min: real, max: real, precision: real, len: nat)
    requires precision > 0.0 && min <= max && len > 0
    requires (Pow2(len - 1) as real) < (max - min) / precision + 1.0 <= Pow2(len) as real
    ensures GetEncodeLen(min, max, precision) == len
  {
    EncodeLenIsLeast(min, max, precision, len);
    Pow2Below(len - 1, GetEncodeLen(min, max, precision));
  }

  lemma Pow2Table()
    ensures Pow2(14) == 16384 && Pow2(15) == 32768
    ensures Pow2(17) == 131072 && Pow2(18) == 262144
  {
    assert Pow2(4) == 16;
    assert Pow2(8) == 256 by { assert Pow2(6) == 64; }
    assert Pow2(12) == 4096 by { assert Pow2(10) == 1024; }
    assert Pow2(14) == 16384;
    assert Pow2(17) == 131072 by { assert Pow2(16) == 65536; }
  }

  /** The segment lengths of the source's domain: x1 in [-3.0, 12.1] and
      x2 in [4.1, 5.8] at precision 0.0001 need 18 and 15 bits. */
  lemma SourceSegmentLengths()
    ensures GetEncodeLen(-3.0, 12.1, 0.0001) == 18
    ensures GetEncodeLen(4.1, 5.8, 0.0001) == 15
  {
    Pow2Table();
    assert (12.1 - -3.0) / 0.0001 + 1.0 == 151001.0;
    EncodeLenExact(-3.0, 12.1, 0.0001, 18);
    assert (5.8 - 4.1) / 0.0001 + 1.0 == 17001.0;
    EncodeLenExact(4.1, 5.8, 0.0001, 15);
  }

  /** Each scaled integer in binary, left-padded with '0' to its segment
      length, the first followed by the second. */
  function Encode(v: Scaled, lay: Layout): (c: Chromosome)
    ensures Fits(v, lay) ==> |c.genes| == TotalLength(lay)
  {
    PaddedFits(v, lay);
    FromString(PadLeft(DecToBinary(v.x1), lay.len1) + PadLeft(DecToBinary(v.x2), lay.len2))
  }

  /** The padded segments of a pair that fits have exactly the segment lengths. */
  lemma PaddedFits(v: Scaled, lay: Layout)
    ensures Fits(v, lay) ==> |PadLeft(DecToBinary(v.x1), lay.len1)| == lay.len1
    ensures Fits(v, lay) ==> |PadLeft(DecToBinary(v.x2), lay.len2)| == lay.len2
  {
    if Fits(v, lay) {
      DecToBinaryFits(v.x1, lay.len1);
      DecToBinaryFits(v.x2, lay.len2);
    }
  }

  /** Splits at len1 and parses each part most significant bit first. Fails
      exactly when the chromosome is shorter than the two segments together. */
  function Decode(c: Chromosome, lay: Layout): (r: Result<Scaled>)
    ensures r.Ok? <==> |c.genes| >= TotalLength(lay)
    ensures r.Err? ==> r.error == IndexOutOfRange
    ensures r.Ok? ==> Fits(r.value, lay)
  {
    var head := SubChromosome(c, 0, lay.len1 - 1);
    var tail := SubChromosome(c, lay.len1, lay.len1 + lay.len2 - 1);
    if head.Err? then Err(head.error)
    else if tail.Err? then Err(tail.error)
    else Ok(Scaled(BinaryToDec(ToString(head.value)), BinaryToDec(ToString(tail.value))))
  }

  /** The two segments of a chromosome built from a + b render as a and b. */
  lemma SegmentsOfJoined(a: string, b: string)
    requires IsBinary(a) && IsBinary(b)
    ensures SubChromosome(FromString(a + b), 0, |a| - 1).Ok?
    ensures ToString(SubChromosome(FromString(a + b), 0, |a| - 1).value) == a
    ensures SubChromosome(FromString(a + b), |a|, |a| + |b| - 1).Ok?
    ensures ToString(SubChromosome(FromString(a + b), |a|, |a| + |b| - 1).value) == b
  {
    var c := FromString(a + b);
    var h := ToString(SubChromosome(c, 0, |a| - 1).value);
    var t := ToString(SubChromosome(c, |a|, |a| + |b| - 1).value);
    forall k | 0 <= k < |a|
      ensures h[k] == a[k]
    {
      assert (a + b)[k] == a[k];
    }
    forall k | 0 <= k < |b|
      ensures t[k] == b[k]
    {
      assert (a + b)[|a| + k] == b[k];
    }
  }

  /** A padded segment of a number that fits is a '0'/'1' string of exactly
      the segment length whose value is the number. */
  lemma PaddedSegment(n: nat, len: nat)
    requires n < Pow2(len)
    ensures |PadLeft(DecToBinary(n), len)| == len
    ensures IsBinary(PadLeft(DecToBinary(n), len))
    ensures BinaryToDec(PadLeft(DecToBinary(n), len)) == n
  {
    DecToBinaryFits(n, len);
    PadLeftIsBinary(DecToBinary(n), len);
    PadLeftKeepsValue(DecToBinary(n), len);
    DecToBinaryRoundTrip(n);
  }

  /** Decoding an encoded pair returns the scaled integers that were encoded. */
  lemma DecodeEncode(v: Scaled, lay: Layout)
    requires Fits(v, lay)
    ensures Decode(Encode(v, lay), lay) == Ok(v)
  {
    var a := PadLeft(DecToBinary(v.x1), lay.len1);
    var b := PadLeft(DecToBinary(v.x2), lay.len2);
    PaddedSegment(v.x1, lay.len1);
    PaddedSegment(v.x2, lay.len2);
    var c := FromString(a + b);
    assert Encode(v, lay) == c;
    SegmentsOfJoined(a, b);
    DecodeJoined(a, b, lay);
  }

  /** Decoding the chromosome of two '0'/'1' strings of the segment lengths
      gives their values. */
  lemma DecodeJoined(a: string, b: string, lay: Layout)
    requires IsBinary(a) && IsBinary(b)
    requires |a| == lay.len1 && |b| == lay.len2
    ensures Decode(FromString(a + b), lay) == Ok(Scaled(BinaryToDec(a), BinaryToDec(b)))
  {
    var c := FromString(a + b);
    SegmentsOfJoined(a, b);
    DecodeParses(c, lay);
    var h := ToString(SubChromosome(c, 0, lay.len1 - 1).value);
    var t := ToString(SubChromosome(c, lay.len1, lay.len1 + lay.len2 - 1).value);
    assert h == a && t == b;
  }

  /** What a successful decode consists of: the values of the two segments. */
  lemma DecodeParses(c: Chromosome, lay: Layout)
    requires |c.genes| >= TotalLength(lay)
    ensures SubChromosome(c, 0, lay.len1 - 1).Ok?
    ensures SubChromosome(c, lay.len1, lay.len1 + lay.len2 - 1).Ok?
    ensures Decode(c, lay)
            == Ok(Scaled(BinaryToDec(ToString(SubChromosome(c, 0, lay.len1 - 1).value)),
                         BinaryToDec(ToString(SubChromosome(c, lay.len1, lay.len1 + lay.len2 - 1).value))))
  {
  }

  /** Rendering the two segments of a chromosome of the full length and
      joining them gives its whole rendering. */
  lemma SegmentsRejoin(c: Chromosome, lay: Layout)
    requires |c.genes| == TotalLength(lay)
    ensures SubChromosome(c, 0, lay.len1 - 1).Ok?
    ensures SubChromosome(c, lay.len1, lay.len1 + lay.len2 - 1).Ok?
    ensures ToString(SubChromosome(c, 0, lay.len1 - 1).value)
            + ToString(SubChromosome(c, lay.len1, lay.len1 + lay.len2 - 1).value) == ToString(c)
  {
    var h := SubChromosome(c, 0, lay.len1 - 1).value;
    var t := SubChromosome(c, lay.len1, lay.len1 + lay.len2 - 1).value;
    assert h.genes + t.genes == c.genes;
    RenderConcat(h, t);
  }

  /** Rendering distributes over joining the bits. */
  lemma RenderConcat(h: Chromosome, t: Chromosome)
    ensures ToString(h) + ToString(t) == ToString(Chromosome(h.genes + t.genes))
  {
    var joined := Chromosome(h.genes + t.genes);
    forall k | 0 <= k < |joined.genes|
      ensures (ToString(h) + ToString(t))[k] == ToString(joined)[k]
    {
      if k < |h.genes| {
        assert joined.genes[k] == h.genes[k];
      } else {
        assert joined.genes[k] == t.genes[k - |h.genes|];
      }
    }
  }

  /** Encoding what a chromosome of the full length decodes to rebuilds the
      same bits: the discrete side of the encoding is an exact round trip. */
  lemma EncodeDecode(c: Chromosome, lay: Layout)
    requires |c.genes| == TotalLength(lay)
    ensures Decode(c, lay).Ok?
    ensures Encode(Decode(c, lay).value, lay) == c
  {
    var a := ToString(SubChromosome(c, 0, lay.len1 - 1).value);
    var b := ToString(SubChromosome(c, lay.len1, lay.len1 + lay.len2 - 1).value);
    DecodeParses(c, lay);
    var v := Decode(c, lay).value;
    assert v == Scaled(BinaryToDec(a), BinaryToDec(b));
    assert |a| == lay.len1 && |b| == lay.len2;
    PadDecToBinaryOfValue(a);
    PadDecToBinaryOfValue(b);
    assert PadLeft(DecToBinary(v.x1), lay.len1) == a;
    assert PadLeft(DecToBinary(v.x2), lay.len2) == b;
    assert Encode(v, lay) == FromString(a + b);
    SegmentsRejoin(c, lay);
    ChromosomeRoundTrip(c);
  }
}

=== FILE: engine.dfy ===
/**
 The generational loop: build the initial population, evaluate it, then for
 every generation breed crossover and mutation offspring from the current
 population, merge the three pools, evaluate the merged pool and select the
 next population from it.
 */
module Engine {

  import opened Outcomes
  import opened Chromosomes
  import opened Encoding
  import opened Randomness
  import opened Operators
  import opened Roulette
  import opened History
  import opened Sampling
  import opened Quantization

  /** The engine's parameters: the two probabilities, the population size
      and the segment lengths. */
  datatype Config = Config(pCrossover: real, pMutation: real, popSize: nat, lay: Layout)

  /** The draws one generation consumes, in the order the source makes them:
      crossover trials, then one draw per bit per chromosome for mutation,
      then one draw per selected member. */
  datatype GenerationDraws = GenerationDraws(cross: seq<CrossTrial>, mutate: seq<seq<real>>, select: seq<real>)

  /** The population and the bookkeeping between two generations. */
  datatype State = State(population: seq<Chromosome>, record: Record)

  /** The draws of a generation have the counts the operators consume, are
      values of the generator, and every firing trial found distinct parents. */
  predicate DrawsWellFormed(cfg: Config, g: GenerationDraws)
  {
    && |g.cross| == cfg.popSize / 2
    && (forall k :: 0 <= k < |g.cross| ==> TrialWellFormed(g.cross[k], cfg.pCrossover, cfg.popSize))
    && |g.mutate| == cfg.popSize
    && (forall k :: 0 <= k < |g.mutate| ==> |g.mutate[k]| == TotalLength(cfg.lay))
    && |g.select| == cfg.popSize
    && (forall k :: 0 <= k < |g.select| ==> IsDraw(g.select[k]))
  }

  /** The objective is positive on every pair a chromosome can decode to. */
  ghost predicate PositiveObjective(objective: Scaled -> real, lay: Layout)
  {
    forall v :: Fits(v, lay) ==> objective(v) > 0.0
  }

  /** Two values of the generator per initial member, for x1 and x2. */
  predicate InitialDrawsWellFormed(init: seq<(real, real)>)
  {
    forall k :: 0 <= k < |init| ==> IsDraw(init[k].0) && IsDraw(init[k].1)
  }

  /** The initial population: one random point per member, drawn as the
      source draws it (x1 over [MinX1, MaxX2), x2 over [MinX2, MaxX2)),
      quantised and encoded. Every member decodes back to its point's scaled
      pair, whose x1 level stands for a real below MaxX2. */
  function Initial(init: seq<(real, real)>, lay: Layout): (pop: seq<Chromosome>)
    requires InitialDrawsWellFormed(init)
    ensures |pop| == |init|
    ensures AllOfLength(pop, TotalLength(lay))
    ensures forall k :: 0 <= k < |init| ==>
      Decode(pop[k], lay) == Ok(ToScaled(SampleX1AsWritten(init[k].0), SampleX2(init[k].1), lay))
    ensures lay.len1 >= 1 ==> forall k :: 0 <= k < |init| ==>
      Dequantize(Decode(pop[k], lay).value.x1, MinX1, MaxX1, lay.len1) < MaxX2
  {
    var points := seq(|init|, k requires 0 <= k < |init| => SamplePoint(init[k].0, init[k].1, lay));
    EncodeAll(points, lay);
    seq(|points|, k requires 0 <= k < |points| => Encode(points[k], lay))
  }

  /** The merged pool a generation evaluates: the population, then its
      crossover offspring, then its mutation offspring. */
  function Merged(cfg: Config, pop: seq<Chromosome>, g: GenerationDraws): (pool: seq<Chromosome>)
    requires TotalLength(cfg.lay) >= 1
    requires |pop| == cfg.popSize && AllOfLength(pop, TotalLength(cfg.lay))
    requires DrawsWellFormed(cfg, g)
    ensures cfg.popSize * 2 <= |pool| <= cfg.popSize * 3
    ensures pool[..|pop|] == pop
    ensures AllOfLength(pool, TotalLength(cfg.lay))
  {
    var len := TotalLength(cfg.lay);
    assert AllAtLeast(pop, len);
    var crossKids := Crossover(pop, cfg.pCrossover, len, g.cross);
    var mutationKids := Mutation(pop, cfg.pMutation, len, g.mutate);
    assert |crossKids| <= |pop| && |mutationKids| == |pop|;
    JoinedOfLength(pop, crossKids, mutationKids, len);
    pop + crossKids + mutationKids
  }

  /** Joining three lists of chromosomes of one length keeps the first as
      prefix and every member at that length. */
  lemma JoinedOfLength(a: seq<Chromosome>, b: seq<Chromosome>, c: seq<Chromosome>, len: nat)
    requires AllOfLength(a, len) && AllOfLength(b, len) && AllOfLength(c, len)
    ensures AllOfLength(a + b + c, len)
    ensures (a + b + c)[..|a|] == a
  {
    var joined := a + b + c;
    forall k | 0 <= k < |joined|
      ensures |joined[k].genes| == len
    {
      if k < |a| {
        assert joined[k] == a[k];
      } else if k < |a| + |b| {
        assert joined[k] == b[k - |a|];
      } else {
        assert joined[k] == c[k - |a| - |b|];
      }
    }
  }

  /** The middle of the merged pool is the crossover offspring: pair m is the
      tail exchange of the m-th firing trial's drawn parents at its drawn point. */
  lemma MergedCrossover(cfg: Config, pop: seq<Chromosome>, g: GenerationDraws)
    requires TotalLength(cfg.lay) >= 1
    requires |pop| == cfg.popSize && AllOfLength(pop, TotalLength(cfg.lay))
    requires DrawsWellFormed(cfg, g)
    ensures var pool := Merged(cfg, pop, g);
      PairedWith(pool[|pop|..|pool| - |pop|], pop, TotalLength(cfg.lay), Firing(cfg.pCrossover, g.cross))
  {
    var len := TotalLength(cfg.lay);
    var crossKids := Crossover(pop, cfg.pCrossover, len, g.cross);
    var mutationKids := Mutation(pop, cfg.pMutation, len, g.mutate);
    var pool := Merged(cfg, pop, g);
    assert pool == pop + crossKids + mutationKids;
    assert pool[|pop|..|pool| - |pop|] == crossKids;
  }

  /** The tail of the merged pool is the mutation offspring: its member k
      differs from population member k at bit j exactly when draw (k, j) is
      at most the mutation probability. */
  lemma MergedMutation(cfg: Config, pop: seq<Chromosome>, g: GenerationDraws)
    requires TotalLength(cfg.lay) >= 1
    requires |pop| == cfg.popSize && AllOfLength(pop, TotalLength(cfg.lay))
    requires DrawsWellFormed(cfg, g)
    ensures var pool := Merged(cfg, pop, g);
      forall k, j :: 0 <= k < |pop| && 0 <= j < TotalLength(cfg.lay) ==>
        (pool[|pool| - |pop| + k].genes[j] != pop[k].genes[j] <==> cfg.pMutation >= g.mutate[k][j])
  {
    var len := TotalLength(cfg.lay);
    var crossKids := Crossover(pop, cfg.pCrossover, len, g.cross);
    var mutationKids := Mutation(pop, cfg.pMutation, len, g.mutate);
    var pool := Merged(cfg, pop, g);
    assert pool == pop + crossKids + mutationKids;
    forall k | 0 <= k < |pop|
      ensures pool[|pool| - |pop| + k] == mutationKids[k]
    {
    }
  }

  /** Every fitting pair encodes to a chromosome of the full length that
      decodes back to it. */
  lemma EncodeAll(points: seq<Scaled>, lay: Layout)
    requires forall k :: 0 <= k < |points| ==> Fits(points[k], lay)
    ensures forall k :: 0 <= k < |points| ==>
      |Encode(points[k], lay).genes| == TotalLength(lay) && Decode(Encode(points[k], lay), lay) == Ok(points[k])
  {
    forall k | 0 <= k < |points|
      ensures Decode(Encode(points[k], lay), lay) == Ok(points[k])
    {
      DecodeEncode(points[k], lay);
    }
  }

  /** One generation: evaluate the merged pool, then select the next
      population from it. */
  function Step(cfg: Config, objective: Scaled -> real, s: State, g: GenerationDraws): (r: State)
    requires TotalLength(cfg.lay) >= 1
    requires |s.population| == cfg.popSize && AllOfLength(s.population, TotalLength(cfg.lay))
    requires DrawsWellFormed(cfg, g)
    requires PositiveObjective(objective, cfg.lay)
    requires Consistent(s.record, objective)
    ensures |r.population| == cfg.popSize
    ensures AllOfLength(r.population, TotalLength(cfg.lay))
    ensures forall k :: 0 <= k < cfg.popSize ==> r.population[k] in Merged(cfg, s.population, g)
    ensures |r.record.localMax| == |s.record.localMax| + 1
    ensures Consistent(r.record, objective)
  {
    var pool := Merged(cfg, s.population, g);
    var rec := Fitness(s.record, pool, objective, cfg.lay);
    FitnessKeepsConsistent(s.record, pool, objective, cfg.lay);
    if cfg.popSize == 0 then
      State([], rec)
    else
      SelectFromPool(cfg, objective, pool, g.select);
      State(Selection(pool, objective, cfg.lay, cfg.popSize, g.select).value, rec)
  }

  /** A generation's record is the fitness pass over the merged pool: the
      new local entry bounds every member's fitness and the best value. */
  lemma StepEvaluates(cfg: Config, objective: Scaled -> real, s: State, g: GenerationDraws)
    requires TotalLength(cfg.lay) >= 1
    requires |s.population| == cfg.popSize && AllOfLength(s.population, TotalLength(cfg.lay))
    requires DrawsWellFormed(cfg, g)
    requires PositiveObjective(objective, cfg.lay)
    requires Consistent(s.record, objective)
    ensures AllAtLeast(Merged(cfg, s.population, g), TotalLength(cfg.lay))
    ensures Step(cfg, objective, s, g).record == Fitness(s.record, Merged(cfg, s.population, g), objective, cfg.lay)
    ensures var pool, r, n := Merged(cfg, s.population, g), Step(cfg, objective, s, g).record, |s.record.localMax|;
      && r.localMax[..n] == s.record.localMax
      && forall k :: 0 <= k < |pool| ==> Fitnesses(pool, objective, cfg.lay)[k] <= r.localMax[n] <= r.maxValue
  {
    var pool := Merged(cfg, s.population, g);
    var rec := Fitness(s.record, pool, objective, cfg.lay);
    assert Step(cfg, objective, s, g).record == rec;
  }

  /** A generation's population is the roulette selection from the merged
      pool with the generation's selection draws, and that selection succeeds. */
  lemma StepSelects(cfg: Config, objective: Scaled -> real, s: State, g: GenerationDraws)
    requires TotalLength(cfg.lay) >= 1
    requires |s.population| == cfg.popSize && AllOfLength(s.population, TotalLength(cfg.lay))
    requires DrawsWellFormed(cfg, g)
    requires PositiveObjective(objective, cfg.lay)
    requires Consistent(s.record, objective)
    ensures AllAtLeast(Merged(cfg, s.population, g), TotalLength(cfg.lay))
    ensures cfg.popSize == 0 ==> Step(cfg, objective, s, g).population == []
    ensures cfg.popSize > 0 ==> Sum(Fitnesses(Merged(cfg, s.population, g), objective, cfg.lay)) > 0.0
    ensures cfg.popSize > 0 ==>
      Selection(Merged(cfg, s.population, g), objective, cfg.lay, cfg.popSize, g.select)
        == Ok(Step(cfg, objective, s, g).population)
  {
    var pool := Merged(cfg, s.population, g);
    if cfg.popSize > 0 {
      SelectFromPool(cfg, objective, pool, g.select);
      PoolTotalPositive(pool, objective, cfg.lay);
    }
  }

  /** Selecting from a non-empty pool scored by a positive objective succeeds
      and keeps only full-length pool members. */
  lemma SelectFromPool(cfg: Config, objective: Scaled -> real, pool: seq<Chromosome>, draws: seq<real>)
    requires AllOfLength(pool, TotalLength(cfg.lay)) && |pool| > 0
    requires PositiveObjective(objective, cfg.lay)
    requires |draws| == cfg.popSize && forall k :: 0 <= k < |draws| ==> IsDraw(draws[k])
    ensures AllAtLeast(pool, TotalLength(cfg.lay))
    ensures Sum(Fitnesses(pool, objective, cfg.lay)) != 0.0
    ensures Selection(pool, objective, cfg.lay, cfg.popSize, draws).Ok?
    ensures |Selection(pool, objective, cfg.lay, cfg.popSize, draws).value| == cfg.popSize
    ensures AllOfLength(Selection(pool, objective, cfg.lay, cfg.popSize, draws).value, TotalLength(cfg.lay))
    ensures forall k :: 0 <= k < cfg.popSize ==> Selection(pool, objective, cfg.lay, cfg.popSize, draws).value[k] in pool
  {
    PoolTotalPositive(pool, objective, cfg.lay);
    SelectionSucceeds(pool, objective, cfg.lay, cfg.popSize, draws);
  }

  /** A non-empty pool scored by a positive objective has a positive total. */
  lemma PoolTotalPositive(pool: seq<Chromosome>, objective: Scaled -> real, lay: Layout)
    requires AllAtLeast(pool, TotalLength(lay))
    requires |pool| > 0
    requires PositiveObjective(objective, lay)
    ensures Sum(Fitnesses(pool, objective, lay)) > 0.0
  {
    var vals := Fitnesses(pool, objective, lay);
    forall k | 0 <= k < |pool|
      ensures vals[k] > 0.0
    {
      assert Fits(Decode(pool[k], lay).value, lay);
    }
    SumPositive(vals);
  }

  /** The generations that remain, one after the other. */
  function Generations(cfg: Config, objective: Scaled -> real, s: State, gens: seq<GenerationDraws>): (r: State)
    requires TotalLength(cfg.lay) >= 1
    requires |s.population| == cfg.popSize && AllOfLength(s.population, TotalLength(cfg.lay))
    requires forall k :: 0 <= k < |gens| ==> DrawsWellFormed(cfg, gens[k])
    requires PositiveObjective(objective, cfg.lay)
    requires Consistent(s.record, objective)
    ensures |r.population| == cfg.popSize
    ensures AllOfLength(r.population, TotalLength(cfg.lay))
    ensures |r.record.localMax| == |s.record.localMax| + |gens|
    ensures Consistent(r.record, objective)
    decreases |gens|
  {
    if |gens| == 0 then s
    else Generations(cfg, objective, Step(cfg, objective, s, gens[0]), gens[1..])
  }

  /** The whole run: the initial population evaluated once, then one
      generation per entry of gens (maxGeneration is |gens|). Both histories
      end with maxGeneration + 1 entries and the global one never decreases. */
  function Run(cfg: Config, objective: Scaled -> real, init: seq<(real, real)>, gens: seq<GenerationDraws>): (r: State)
    requires TotalLength(cfg.lay) >= 1
    requires |init| == cfg.popSize && InitialDrawsWellFormed(init)
    requires forall k :: 0 <= k < |gens| ==> DrawsWellFormed(cfg, gens[k])
    requires PositiveObjective(objective, cfg.lay)
    ensures |r.population| == cfg.popSize
    ensures AllOfLength(r.population, TotalLength(cfg.lay))
    ensures |r.record.localMax| == |gens| + 1
    ensures Consistent(r.record, objective)
  {
    Generations(cfg, objective, Start(cfg, objective, init), gens)
  }

  /** The initial population, evaluated once: one history entry each. */
  function Start(cfg: Config, objective: Scaled -> real, init: seq<(real, real)>): (s: State)
    requires |init| == cfg.popSize && InitialDrawsWellFormed(init)
    ensures |s.population| == cfg.popSize && AllOfLength(s.population, TotalLength(cfg.lay))
    ensures |s.record.localMax| == 1
    ensures Consistent(s.record, objective)
  {
    var pop := Initial(init, cfg.lay);
    InitialConsistent(objective);
    FitnessKeepsConsistent(InitialRecord(), pop, objective, cfg.lay);
    State(pop, Fitness(InitialRecord(), pop, objective, cfg.lay))
  }
}

=== FILE: history.dfy ===
/**
 The per-generation bookkeeping of the engine: the best fitness of each
 evaluated pool (the local history), the best fitness ever seen (the global
 history), and the record of the best solution.
 */
module History {

  import opened Outcomes
  import opened Chromosomes
  import opened Encoding
  import opened Roulette

  /** The smallest finite double, the start value of every running maximum. */
  const DoubleMinValue: real := -1.7976931348623157e308

  /** The histories and the best-solution record; optimum None stands for the
      source's initial optimum (0, 0), never yet replaced. */
  datatype Record = Record(localMax: seq<real>, globalMax: seq<real>, maxValue: real, optimum: Option<Scaled>)

  /** The record before any generation was evaluated. */
  function InitialRecord(): Record
  {
    Record([], [], DoubleMinValue, None)
  }

  /** The running maximum of a pool: its value and the index that set it. */
  datatype Best = Best(value: real, index: Option<nat>)

  /** The scan of the source: start at the smallest double and keep a value
      only when it is strictly greater than the best so far. */
  function LocalBest(vals: seq<real>): (b: Best)
    ensures DoubleMinValue <= b.value
    ensures forall k :: 0 <= k < |vals| ==> vals[k] <= b.value
    ensures b.index.None? ==> b.value == DoubleMinValue
    ensures b.index.Some? ==> b.index.value < |vals| && vals[b.index.value] == b.value
    ensures b.index.Some? ==> forall k :: 0 <= k < b.index.value ==> vals[k] < b.value
  {
    if |vals| == 0 then Best(DoubleMinValue, None)
    else
      var front := LocalBest(vals[..|vals| - 1]);
      if vals[|vals| - 1] > front.value then Best(vals[|vals| - 1], Some(|vals| - 1)) else front
  }

  /** The history invariant: the two histories have one entry per evaluated
      generation, the global one never decreases, never lies below the local
      one, and ends with the best value, which the recorded optimum scores. */
  ghost predicate Consistent(rec: Record, objective: Scaled -> real)
  {
    && |rec.localMax| == |rec.globalMax|
    && (forall i, j :: 0 <= i <= j < |rec.globalMax| ==> rec.globalMax[i] <= rec.globalMax[j])
    && (forall k :: 0 <= k < |rec.localMax| ==> rec.localMax[k] <= rec.globalMax[k])
    && (|rec.globalMax| > 0 ==> rec.globalMax[|rec.globalMax| - 1] == rec.maxValue)
    && DoubleMinValue <= rec.maxValue
    && (rec.optimum.Some? ==> objective(rec.optimum.value) == rec.maxValue)
  }

  /** One fitness pass over a pool: append the pool's best to the local
      history; replace the record only on a strictly greater value; append the
      (possibly unchanged) best ever to the global history. */
  function Fitness(rec: Record, pool: seq<Chromosome>, objective: Scaled -> real, lay: Layout): (r: Record)
    requires AllAtLeast(pool, TotalLength(lay))
    requires DoubleMinValue <= rec.maxValue
    ensures |r.localMax| == |rec.localMax| + 1 && r.localMax[..|rec.localMax|] == rec.localMax
    ensures |r.globalMax| == |rec.globalMax| + 1 && r.globalMax[..|rec.globalMax|] == rec.globalMax
    ensures forall k :: 0 <= k < |pool| ==>
      Fitnesses(pool, objective, lay)[k] <= r.localMax[|rec.localMax|] <= r.maxValue
    ensures r.localMax[|rec.localMax|] == DoubleMinValue
            || exists k :: 0 <= k < |pool| && Fitnesses(pool, objective, lay)[k] == r.localMax[|rec.localMax|]
    ensures r.globalMax[|rec.globalMax|] == r.maxValue
    ensures rec.maxValue <= r.maxValue
    ensures r.maxValue != rec.maxValue ==>
      r.optimum.Some? && objective(r.optimum.value) == r.maxValue
      && exists k :: 0 <= k < |pool| && r.optimum.value == Decode(pool[k], lay).value
    ensures r.maxValue == rec.maxValue ==> r.optimum == rec.optimum
  {
    var vals := Fitnesses(pool, objective, lay);
    var b := LocalBest(vals);
    var local := if b.index.Some? then Some(Decode(pool[b.index.value], lay).value) else None;
    if b.value > rec.maxValue then
      assert local.Some? && objective(local.value) == b.value;
      Record(rec.localMax + [b.value], rec.globalMax + [b.value], b.value, local)
    else
      Record(rec.localMax + [b.value], rec.globalMax + [rec.maxValue], rec.maxValue, rec.optimum)
  }

  /** The initial record satisfies the history invariant. */
  lemma InitialConsistent(objective: Scaled -> real)
    ensures Consistent(InitialRecord(), objective)
  {
  }

  /** A fitness pass keeps the history invariant. */
  lemma FitnessKeepsConsistent(rec: Record, pool: seq<Chromosome>, objective: Scaled -> real, lay: Layout)
    requires AllAtLeast(pool, TotalLength(lay))
    requires Consistent(rec, objective)
    ensures Consistent(Fitness(rec, pool, objective, lay), objective)
  {
    var r := Fitness(rec, pool, objective, lay);
    var n := |rec.globalMax|;
    forall i, j | 0 <= i <= j < |r.globalMax|
      ensures r.globalMax[i] <= r.globalMax[j]
    {
      if j == n && i < n {
        assert r.globalMax[i] == rec.globalMax[i] <= rec.globalMax[n - 1];
      } else if j < n {
        assert r.globalMax[i] == rec.globalMax[i] && r.globalMax[j] == rec.globalMax[j];
      }
    }
    forall k | 0 <= k < |r.localMax|
      ensures r.localMax[k] <= r.globalMax[k]
    {
      if k < n {
        assert r.localMax[k] == rec.localMax[k] && r.globalMax[k] == rec.globalMax[k];
      } else {
        var vals := Fitnesses(pool, objective, lay);
        assert r.localMax[k] == LocalBest(vals).value;
      }
    }
  }
}

=== FILE: operators.dfy ===
/**
 The two operators that breed offspring from a population: single-point
 crossover and per-bit mutation, with their random draws as parameters.
 */
module Operators {

  import opened Chromosomes
  import opened Randomness

  /** The draws of one crossover trial: the probability test, the two parent
      draws of the last round of the resampling loop (earlier rounds, which
      gave equal indices, only consume draws), and the crossover point. */
  datatype CrossTrial = CrossTrial(r: real, ui: real, uj: real, up: real)

  /** A parent index, drawn from [0, count - 1). */
  function ParentIndex(u: real, count: int): int
  {
    DrawIndex(u, 0, count - 1)
  }

  /** A crossover point, drawn from [1, len - 2). */
  function CrossPoint(u: real, len: int): int
  {
    DrawIndex(u, 1, len - 2)
  }

  /** A parent index lies in the pool but is never its last member. */
  lemma ParentNeverLast(u: real, count: int)
    requires IsDraw(u) && count >= 2
    ensures 0 <= ParentIndex(u, count) < count - 1
  {
    if count > 2 {
      DrawIndexRange(u, 0, count - 1);
    } else {
      assert (count - 1) as real == 1.0;
      assert RandomNumber(u, 0.0, 1.0) == u;
    }
  }

  /** From a pool of at most two, every draw gives index 0. */
  lemma SmallPoolHasOneParent(u: real, count: int)
    requires IsDraw(u) && 0 <= count <= 2
    ensures ParentIndex(u, count) == 0
  {
    var x := RandomNumber(u, 0.0, (count - 1) as real);
    assert x == u * (count - 1) as real;
    if count == 0 {
      assert x == -u;
    }
  }

  /** Two distinct parents can only be drawn from a pool of at least three,
      so from a smaller pool the resampling loop never ends. */
  lemma DistinctParentsNeedThree(ui: real, uj: real, count: int)
    requires IsDraw(ui) && IsDraw(uj) && count >= 0
    requires ParentIndex(ui, count) != ParentIndex(uj, count)
    ensures count >= 3
  {
    if count < 3 {
      SmallPoolHasOneParent(ui, count);
      SmallPoolHasOneParent(uj, count);
    }
  }

  /** The crossover point splits a chromosome of length len inside [0, len];
      from length 4 on it is strictly inside, in [1, len - 3]. */
  lemma CrossPointRange(u: real, len: int)
    requires IsDraw(u) && len >= 1
    ensures 0 <= CrossPoint(u, len) <= len
    ensures len >= 4 ==> 1 <= CrossPoint(u, len) <= len - 3
    ensures len == 3 ==> CrossPoint(u, len) == 1
  {
    var x := RandomNumber(u, 1.0, (len - 2) as real);
    if len >= 4 {
      DrawIndexRange(u, 1, len - 2);
    } else if len == 3 {
      assert x == 1.0;
    } else {
      assert x == 1.0 - u * (3 - len) as real;
      assert -1.0 < x <= 1.0;
    }
  }

  /** Whether a trial passes the probability test. */
  predicate Fires(pc: real, t: CrossTrial)
  {
    pc >= t.r
  }

  /** The draws of a trial are draws, and a firing trial's parents differ
      (the resampling loop stopped). */
  predicate TrialWellFormed(t: CrossTrial, pc: real, count: int)
  {
    && IsDraw(t.r) && IsDraw(t.ui) && IsDraw(t.uj) && IsDraw(t.up)
    && (Fires(pc, t) ==> ParentIndex(t.ui, count) != ParentIndex(t.uj, count))
  }

  /** Bits [0, p) of x followed by bits [p, len) of y, built as the source
      builds it: render both sub-ranges, join the text, parse it. */
  function Splice(x: Chromosome, y: Chromosome, p: int, len: nat): (c: Chromosome)
    requires 0 <= p <= len <= |x.genes| && len <= |y.genes|
    ensures c.genes == x.genes[..p] + y.genes[p..len]
  {
    var head := SubChromosome(x, 0, p - 1).value;
    var tail := SubChromosome(y, p, len - 1).value;
    var c := FromString(ToString(head) + ToString(tail));
    assert c.genes == x.genes[..p] + y.genes[p..len] by {
      forall k | 0 <= k < len
        ensures c.genes[k] == (x.genes[..p] + y.genes[p..len])[k]
      {
        if k < p {
          assert (ToString(head) + ToString(tail))[k] == ToString(head)[k];
        } else {
          assert (ToString(head) + ToString(tail))[k] == ToString(tail)[k - p];
        }
      }
    }
    c
  }

  /** a and b are the two children of x and y exchanging tails at p. */
  predicate Mates(a: Chromosome, b: Chromosome, x: Chromosome, y: Chromosome, p: int, len: nat)
  {
    && 0 <= p <= len <= |x.genes| && len <= |y.genes|
    && a.genes == x.genes[..p] + y.genes[p..len]
    && b.genes == y.genes[..p] + x.genes[p..len]
  }

  /** a and b are the children of two distinct pool members, neither of them
      the last one. */
  ghost predicate MatedPair(a: Chromosome, b: Chromosome, pool: seq<Chromosome>, len: nat)
  {
    exists i, j, p | 0 <= i < |pool| - 1 && 0 <= j < |pool| - 1 && i != j
                     && 0 <= p <= len && (len >= 4 ==> 1 <= p <= len - 3) ::
      Mates(a, b, pool[i], pool[j], p, len)
  }

  /** a and b are the children of the trial's drawn parents exchanging tails
      at the trial's drawn point. */
  predicate TrialMates(a: Chromosome, b: Chromosome, pool: seq<Chromosome>, len: nat, t: CrossTrial)
  {
    var i, j := ParentIndex(t.ui, |pool|), ParentIndex(t.uj, |pool|);
    && 0 <= i < |pool| && 0 <= j < |pool|
    && Mates(a, b, pool[i], pool[j], CrossPoint(t.up, len), len)
  }

  /** Pair m of the offspring (children 2m and 2m + 1) comes from trial f[m]. */
  predicate PairedWith(kids: seq<Chromosome>, pool: seq<Chromosome>, len: nat, f: seq<CrossTrial>)
  {
    && |kids| == 2 * |f|
    && forall m :: 0 <= m < |f| ==> TrialMates(kids[2 * m], kids[2 * m + 1], pool, len, f[m])
  }

  /** The offspring come in mated pairs, one pair after the other. */
  ghost predicate AllMated(kids: seq<Chromosome>, pool: seq<Chromosome>, len: nat)
    decreases |kids|
  {
    if |kids| == 0 then true
    else |kids| >= 2 && MatedPair(kids[0], kids[1], pool, len) && AllMated(kids[2..], pool, len)
  }

  /** One crossover trial: no child when the test fails, otherwise the two
      children of parents i and j exchanging tails at the drawn point. */
  function TrialChildren(pool: seq<Chromosome>, pc: real, len: nat, t: CrossTrial): (kids: seq<Chromosome>)
    requires len >= 1 && AllAtLeast(pool, len)
    requires TrialWellFormed(t, pc, |pool|)
    ensures !Fires(pc, t) ==> kids == []
    ensures Fires(pc, t) ==> |kids| == 2 && MatedPair(kids[0], kids[1], pool, len)
    ensures Fires(pc, t) ==> TrialMates(kids[0], kids[1], pool, len, t)
    ensures AllOfLength(kids, len)
  {
    if !Fires(pc, t) then []
    else
      var i := ParentIndex(t.ui, |pool|);
      var j := ParentIndex(t.uj, |pool|);
      DistinctParentsNeedThree(t.ui, t.uj, |pool|);
      ParentNeverLast(t.ui, |pool|);
      ParentNeverLast(t.uj, |pool|);
      var p := CrossPoint(t.up, len);
      var a := Splice(pool[i], pool[j], p, len);
      var b := Splice(pool[j], pool[i], p, len);
      assert Mates(a, b, pool[i], pool[j], p, len);
      TrialMatesAreMated(a, b, pool, pc, len, t);
      [a, b]
  }

  /** The children of a firing, well-formed trial are a mated pair: its two
      parent draws give distinct members other than the last, and its point
      lies in the range the draw allows. */
  lemma TrialMatesAreMated(a: Chromosome, b: Chromosome, pool: seq<Chromosome>, pc: real, len: nat, t: CrossTrial)
    requires len >= 1
    requires TrialWellFormed(t, pc, |pool|) && Fires(pc, t)
    requires TrialMates(a, b, pool, len, t)
    ensures MatedPair(a, b, pool, len)
  {
    var i := ParentIndex(t.ui, |pool|);
    var j := ParentIndex(t.uj, |pool|);
    DistinctParentsNeedThree(t.ui, t.uj, |pool|);
    ParentNeverLast(t.ui, |pool|);
    ParentNeverLast(t.uj, |pool|);
    var p := CrossPoint(t.up, len);
    CrossPointRange(t.up, len);
    assert Mates(a, b, pool[i], pool[j], p, len);
  }

  /** Offspring paired with firing, well-formed trials come in mated pairs. */
  lemma {:induction false} PairedAreMated(kids: seq<Chromosome>, pool: seq<Chromosome>, pc: real, len: nat,
                                          f: seq<CrossTrial>)
    requires len >= 1
    requires PairedWith(kids, pool, len, f)
    requires forall m :: 0 <= m < |f| ==> Fires(pc, f[m]) && TrialWellFormed(f[m], pc, |pool|)
    ensures AllMated(kids, pool, len)
    decreases |f|
  {
    if |f| > 0 {
      TrialMatesAreMated(kids[0], kids[1], pool, pc, len, f[0]);
      var rest := kids[2..];
      forall m | 0 <= m < |f| - 1
        ensures TrialMates(rest[2 * m], rest[2 * m + 1], pool, len, f[1..][m])
      {
        assert rest[2 * m] == kids[2 * (m + 1)] && rest[2 * m + 1] == kids[2 * (m + 1) + 1];
        assert f[1..][m] == f[m + 1];
      }
      PairedAreMated(rest, pool, pc, len, f[1..]);
    }
  }

  /** The number of trials that pass the probability test. */
  function FiredCount(pc: real, trials: seq<CrossTrial>): (n: nat)
    ensures n <= |trials|
  {
    if |trials| == 0 then 0
    else FiredCount(pc, trials[..|trials| - 1]) + (if Fires(pc, trials[|trials| - 1]) then 1 else 0)
  }

  /** The trials that pass the probability test, in their order. */
  function Firing(pc: real, trials: seq<CrossTrial>): (f: seq<CrossTrial>)
    ensures |f| == FiredCount(pc, trials)
    ensures forall m :: 0 <= m < |f| ==> Fires(pc, f[m]) && f[m] in trials
    ensures |trials| == 0 ==> f == []
    ensures |trials| == 1 ==> f == (if Fires(pc, trials[0]) then trials else [])
  {
    if |trials| == 0 then []
    else
      var last := trials[|trials| - 1];
      Firing(pc, trials[..|trials| - 1]) + (if Fires(pc, last) then [last] else [])
  }

  /** Filtering a concatenation filters each part and keeps their order, so
      together with the one-trial case the firing trials are exactly the
      firing ones among the trials, each once, in trial order. */
  lemma {:induction false} FiringAppend(pc: real, a: seq<CrossTrial>, b: seq<CrossTrial>)
    ensures Firing(pc, a + b) == Firing(pc, a) + Firing(pc, b)
    decreases |b|
  {
    if |b| == 0 {
      assert a + b == a;
    } else {
      var front := b[..|b| - 1];
      var t := b[|b| - 1];
      assert (a + b)[..|a + b| - 1] == a + front;
      assert (a + b)[|a + b| - 1] == t;
      FiringAppend(pc, a, front);
    }
  }

  /** The offspring of a run of trials, in trial order: pair m comes from
      the m-th firing trial. */
  function CrossoverTrials(pool: seq<Chromosome>, pc: real, len: nat, trials: seq<CrossTrial>): (kids: seq<Chromosome>)
    requires len >= 1 && AllAtLeast(pool, len)
    requires forall k :: 0 <= k < |trials| ==> TrialWellFormed(trials[k], pc, |pool|)
    ensures |kids| == 2 * FiredCount(pc, trials)
    ensures AllOfLength(kids, len)
    ensures PairedWith(kids, pool, len, Firing(pc, trials))
  {
    if |trials| == 0 then []
    else
      var t := trials[|trials| - 1];
      var front := CrossoverTrials(pool, pc, len, trials[..|trials| - 1]);
      var last := TrialChildren(pool, pc, len, t);
      PairedAppend(front, last, pool, len, Firing(pc, trials[..|trials| - 1]), t, Fires(pc, t));
      front + last
  }

  /** Appending the children of one more trial keeps the pairing with the
      firing trials. */
  lemma PairedAppend(front: seq<Chromosome>, last: seq<Chromosome>, pool: seq<Chromosome>, len: nat,
                     f: seq<CrossTrial>, t: CrossTrial, fires: bool)
    requires PairedWith(front, pool, len, f)
    requires fires ==> |last| == 2 && TrialMates(last[0], last[1], pool, len, t)
    requires !fires ==> last == []
    ensures PairedWith(front + last, pool, len, f + (if fires then [t] else []))
  {
    var g := f + (if fires then [t] else []);
    var kids := front + last;
    forall m | 0 <= m < |g|
      ensures TrialMates(kids[2 * m], kids[2 * m + 1], pool, len, g[m])
    {
      if m < |f| {
        assert kids[2 * m] == front[2 * m] && kids[2 * m + 1] == front[2 * m + 1];
      } else {
        assert kids[2 * m] == last[0] && kids[2 * m + 1] == last[1];
      }
    }
  }

  /** Crossover: |pool| / 2 trials, each adding zero or two children of
      length len, so the offspring count is even and at most the pool size. */
  function Crossover(pool: seq<Chromosome>, pc: real, len: nat, trials: seq<CrossTrial>): (kids: seq<Chromosome>)
    requires len >= 1 && AllAtLeast(pool, len)
    requires |trials| == |pool| / 2
    requires forall k :: 0 <= k < |trials| ==> TrialWellFormed(trials[k], pc, |pool|)
    ensures |kids| % 2 == 0 && |kids| <= 2 * (|pool| / 2)
    ensures AllOfLength(kids, len)
    ensures AllMated(kids, pool, len)
    ensures PairedWith(kids, pool, len, Firing(pc, trials))
  {
    var kids := CrossoverTrials(pool, pc, len, trials);
    FiringWellFormed(pc, trials, |pool|);
    PairedAreMated(kids, pool, pc, len, Firing(pc, trials));
    kids
  }

  /** The firing trials of well-formed trials are well-formed. */
  lemma FiringWellFormed(pc: real, trials: seq<CrossTrial>, count: int)
    requires forall k :: 0 <= k < |trials| ==> TrialWellFormed(trials[k], pc, count)
    ensures forall m :: 0 <= m < |Firing(pc, trials)| ==> TrialWellFormed(Firing(pc, trials)[m], pc, count)
  {
    var f := Firing(pc, trials);
    forall m | 0 <= m < |f|
      ensures TrialWellFormed(f[m], pc, count)
    {
      assert f[m] in trials;
      var k :| 0 <= k < |trials| && trials[k] == f[m];
    }
  }

  /** Every trial passes when the crossover probability is at least one. */
  lemma {:induction false} AllTrialsFire(pc: real, trials: seq<CrossTrial>)
    requires pc >= 1.0
    requires forall k :: 0 <= k < |trials| ==> IsDraw(trials[k].r)
    ensures FiredCount(pc, trials) == |trials|
  {
    if |trials| > 0 {
      AllTrialsFire(pc, trials[..|trials| - 1]);
    }
  }

  /** No trial passes when the crossover probability is below every draw. */
  lemma {:induction false} NoTrialFires(pc: real, trials: seq<CrossTrial>)
    requires forall k :: 0 <= k < |trials| ==> pc < trials[k].r
    ensures FiredCount(pc, trials) == 0
  {
    if |trials| > 0 {
      NoTrialFires(pc, trials[..|trials| - 1]);
    }
  }

  /** Exchanging tails keeps, at every position, the two parents' bits: each
      child bit is one parent's bit and the pair of child bits is the pair
      of parent bits. */
  lemma MatesConserveLoci(a: Chromosome, b: Chromosome, x: Chromosome, y: Chromosome, p: int, len: nat)
    requires Mates(a, b, x, y, p, len)
    ensures |a.genes| == len && |b.genes| == len
    ensures forall k :: 0 <= k < len ==>
      multiset{a.genes[k], b.genes[k]} == multiset{x.genes[k], y.genes[k]}
    ensures forall k :: 0 <= k < len ==>
      ((a.genes[k] == x.genes[k] && b.genes[k] == y.genes[k]) <==> (k < p || x.genes[k] == y.genes[k]))
  {
    forall k | 0 <= k < len
      ensures multiset{a.genes[k], b.genes[k]} == multiset{x.genes[k], y.genes[k]}
      ensures (a.genes[k] == x.genes[k] && b.genes[k] == y.genes[k]) <==> (k < p || x.genes[k] == y.genes[k])
    {
      MatesAt(a, b, x, y, p, len, k);
    }
  }

  lemma MatesAt(a: Chromosome, b: Chromosome, x: Chromosome, y: Chromosome, p: int, len: nat, k: nat)
    requires Mates(a, b, x, y, p, len) && k < len
    ensures k < p ==> a.genes[k] == x.genes[k] && b.genes[k] == y.genes[k]
    ensures p <= k ==> a.genes[k] == y.genes[k] && b.genes[k] == x.genes[k]
  {
    if k < p {
      assert a.genes[k] == (x.genes[..p] + y.genes[p..len])[k];
    } else {
      assert a.genes[k] == (x.genes[..p] + y.genes[p..len])[k];
      assert b.genes[k] == (y.genes[..p] + x.genes[p..len])[k];
    }
  }

  /** One chromosome mutated: bit j (for j below the number of draws) flips
      when its draw is at most the mutation probability; the input is only read. */
  function MutateOne(c: Chromosome, pm: real, draws: seq<real>): (m: Chromosome)
    requires |draws| <= |c.genes|
    ensures |m.genes| == |c.genes|
    ensures forall j :: 0 <= j < |c.genes| ==>
      (m.genes[j] != c.genes[j] <==> j < |draws| && pm >= draws[j])
  {
    Chromosome(seq(|c.genes|, j requires 0 <= j < |c.genes| =>
      if j < |draws| && pm >= draws[j] then !c.genes[j] else c.genes[j]))
  }

  /** Mutation: one offspring per input chromosome, in order, each with the
      first len bits each compared with its own draw. */
  function Mutation(pool: seq<Chromosome>, pm: real, len: nat, draws: seq<seq<real>>): (kids: seq<Chromosome>)
    requires |draws| == |pool|
    requires forall k :: 0 <= k < |pool| ==> |draws[k]| == len <= |pool[k].genes|
    ensures |kids| == |pool|
    ensures forall k :: 0 <= k < |pool| ==> |kids[k].genes| == |pool[k].genes|
    ensures forall k, j :: 0 <= k < |pool| && 0 <= j < |pool[k].genes| ==>
      (kids[k].genes[j] != pool[k].genes[j] <==> j < len && pm >= draws[k][j])
  {
    seq(|pool|, k requires 0 <= k < |pool| => MutateOne(pool[k], pm, draws[k]))
  }

  /** With a mutation probability below every draw, nothing changes. */
  lemma MutationBelowEveryDraw(pool: seq<Chromosome>, pm: real, len: nat, draws: seq<seq<real>>)
    requires |draws| == |pool|
    requires forall k :: 0 <= k < |pool| ==> |draws[k]| == len <= |pool[k].genes|
    requires forall k, j :: 0 <= k < |pool| && 0 <= j < len ==> pm < draws[k][j]
    ensures Mutation(pool, pm, len, draws) == pool
  {
    var kids := Mutation(pool, pm, len, draws);
    forall k | 0 <= k < |pool|
      ensures kids[k] == pool[k]
    {
      assert kids[k].genes == pool[k].genes;
    }
  }

  /** With a mutation probability of one, every bit with a draw flips. */
  lemma MutationCertain(pool: seq<Chromosome>, pm: real, len: nat, draws: seq<seq<real>>)
    requires |draws| == |pool|
    requires forall k :: 0 <= k < |pool| ==> |draws[k]| == len <= |pool[k].genes|
    requires forall k, j :: 0 <= k < |pool| && 0 <= j < len ==> IsDraw(draws[k][j])
    requires pm >= 1.0
    ensures forall k, j :: 0 <= k < |pool| && 0 <= j < len ==>
      Mutation(pool, pm, len, draws)[k].genes[j] == !pool[k].genes[j]
  {
  }

  /** Mutating twice with the same draws restores the input. */
  lemma MutationInvolution(pool: seq<Chromosome>, pm: real, len: nat, draws: seq<seq<real>>)
    requires |draws| == |pool|
    requires forall k :: 0 <= k < |pool| ==> |draws[k]| == len <= |pool[k].genes|
    ensures Mutation(Mutation(pool, pm, len, draws), pm, len, draws) == pool
  {
    var once := Mutation(pool, pm, len, draws);
    var twice := Mutation(once, pm, len, draws);
    forall k | 0 <= k < |pool|
      ensures twice[k] == pool[k]
    {
      assert twice[k].genes == pool[k].genes;
    }
  }
}

=== FILE: outcomes.dfy ===
/**
 The failure-carrying values of the model: the exceptions the source can
 raise, a result that is either a value or one of them, and an optional value.
 */
module Outcomes {

  /** The exceptions the modelled code can raise. */
  datatype Fault =
    | NegativeSize      // an array of negative length was requested
    | IndexOutOfRange   // an index outside a bit array or a list was used

  datatype Result<T> = Ok(value: T) | Err(error: Fault)

  datatype Option<T> = None | Some(value: T)
}

=== FILE: quantize.dfy ===
/**
 The real side of the encoding: the problem's domain, the linear map of a
 real in [min, max] onto the 2^len levels of a segment (truncated to an
 integer) and the map back from a level to a real.
 */
module Quantization {

  import opened BinaryCodec
  import opened Randomness
  import opened Encoding
  import opened Outcomes
  import opened Chromosomes

  /** The domain of the two variables and the precision of the encoding. */
  const MinX1: real := -3.0
  const MaxX1: real := 12.1
  const MinX2: real := 4.1
  const MaxX2: real := 5.8
  const Precision: real := 0.0001

  /** The largest level of a segment of len bits, as a real. */
  function Top(len: nat): (q: real)
    ensures q >= 0.0
    ensures len >= 1 ==> q >= 1.0
  {
    (Pow2(len) - 1) as real
  }

  /** The level of x: its share (x - min) / (max - min) of the domain scaled
      to the largest level 2^len - 1, truncated. */
  function Quantize(x: real, min: real, max: real, len: nat): (n: int)
    requires min < max
    ensures min <= x <= max ==> 0 <= n < Pow2(len)
  {
    LevelBounds(x, min, max, len);
    Truncate(Level(x, min, max, len))
  }

  /** The unrounded level of x. */
  function Level(x: real, min: real, max: real, len: nat): real
    requires min < max
  {
    Share(x, min, max) * Top(len)
  }

  /** A point of the domain has an unrounded level between 0 and the top. */
  lemma LevelBounds(x: real, min: real, max: real, len: nat)
    requires min < max
    ensures min <= x <= max ==> 0.0 <= Level(x, min, max, len) <= Top(len)
  {
    if min <= x <= max {
      var m := FractionOf(Share(x, min, max), Top(len));
    }
  }

  /** The share of the domain below x. */
  function Share(x: real, min: real, max: real): (t: real)
    requires min < max
    ensures min <= x <= max ==> 0.0 <= t <= 1.0
  {
    var w := max - min;
    var t := (x - min) / w;
    assert t * w == x - min;
    assert (1.0 - t) * w == w - (x - min);
    assert min <= x <= max ==> 0.0 <= t <= 1.0 by {
      if min <= x <= max {
        NonNegativeFactor(t, w);
        NonNegativeFactor(1.0 - t, w);
      }
    }
    t
  }

  lemma NonNegativeFactor(a: real, w: real)
    requires w > 0.0 && a * w >= 0.0
    ensures a >= 0.0
  {
  }

  lemma FractionBounds(t: real, q: real)
    requires 0.0 <= t <= 1.0 && q >= 0.0
    ensures 0.0 <= t * q <= q
  {
    assert (1.0 - t) * q >= 0.0;
  }

  /** FractionBounds with the product named, so that callers need not
      multiply again. */
  lemma FractionOf(t: real, q: real) returns (m: real)
    requires 0.0 <= t <= 1.0 && q >= 0.0
    ensures m == t * q && 0.0 <= m <= q
  {
    FractionBounds(t, q);
    m := t * q;
  }

  /** The width of one level: (max - min) / (2^len - 1). */
  function Width(min: real, max: real, len: nat): (s: real)
    requires min < max && len >= 1
    ensures s > 0.0 && s * Top(len) == max - min
  {
    (max - min) / Top(len)
  }

  /** The real a level stands for: min plus that many level widths. Level 0
      stands for min, the top level for max, and every level in between for
      a real of the domain. */
  function Dequantize(n: int, min: real, max: real, len: nat): (x: real)
    requires min < max && len >= 1
    ensures 0 <= n < Pow2(len) ==> min <= x <= max
    ensures n == 0 ==> x == min
    ensures n == Pow2(len) - 1 ==> x == max
  {
    var s := Width(min, max, len);
    assert 0 <= n < Pow2(len) ==> 0.0 <= n as real * s <= Top(len) * s by {
      if 0 <= n < Pow2(len) {
        StepsBounds(n as real, Top(len), s);
      }
    }
    min + n as real * s
  }

  lemma StepsBounds(n: real, q: real, s: real)
    requires 0.0 <= n <= q && s > 0.0
    ensures 0.0 <= n * s <= q * s
  {
    assert (q - n) * s >= 0.0;
  }

  /** Every level maps to a real of the domain that maps back to the same level. */
  lemma QuantizeDequantize(n: nat, min: real, max: real, len: nat)
    requires min < max && len >= 1 && n < Pow2(len)
    ensures min <= Dequantize(n, min, max, len) <= max
    ensures Quantize(Dequantize(n, min, max, len), min, max, len) == n
  {
    var x := Dequantize(n, min, max, len);
    LevelOfDequantize(n, min, max, len);
    assert Level(x, min, max, len) == n as real;
  }

  lemma LevelOfDequantize(n: nat, min: real, max: real, len: nat)
    requires min < max && len >= 1
    ensures Level(Dequantize(n, min, max, len), min, max, len) == n as real
  {
    var q, w, s := Top(len), max - min, Width(min, max, len);
    var a := n as real * s;
    assert Dequantize(n, min, max, len) - min == a;
    assert a * q == n as real * w by {
      Associate(n as real, s, q);
    }
    var t := a / w;
    var y := Level(Dequantize(n, min, max, len), min, max, len);
    assert y == t * q;
    assert t * w == a;
    assert y * w == n as real * w by {
      Associate(t, q, w);
      Associate(t, w, q);
    }
    Cancel(y, n as real, w);
  }

  lemma Associate(a: real, b: real, c: real)
    ensures (a * b) * c == a * (b * c) && (a * b) * c == (a * c) * b
  {
  }

  lemma Cancel(a: real, b: real, w: real)
    requires w > 0.0 && a * w == b * w
    ensures a == b
  {
  }

  /** The real of a value's level lies at most one level width below it. */
  lemma DequantizeQuantize(x: real, min: real, max: real, len: nat)
    requires min <= x <= max && min < max && len >= 1
    ensures Dequantize(Quantize(x, min, max, len), min, max, len) <= x
    ensures x < Dequantize(Quantize(x, min, max, len), min, max, len) + Width(min, max, len)
  {
    var q, w, s := Top(len), max - min, Width(min, max, len);
    var y := Level(x, min, max, len);
    var n := Quantize(x, min, max, len);
    LevelBounds(x, min, max, len);
    assert n == Truncate(y);
    assert n as real <= y < n as real + 1.0;
    var t := (x - min) / w;
    assert y == t * q;
    assert y * s == x - min by {
      Associate(t, q, s);
      assert t * w == x - min;
    }
    var m := Scale(y, n as real, s);
    assert Dequantize(n, min, max, len) == min + n as real * s;
  }

  /** Scaling a value within one unit above n by s > 0 lands within s above n * s. */
  lemma Scale(y: real, n: real, s: real) returns (m: real)
    requires n <= y < n + 1.0 && s > 0.0
    ensures m == y * s && n * s <= m < n * s + s
  {
    m := y * s;
    var d := n + 1.0 - y;
    assert d * s > 0.0;
    assert d * s == n * s + s - m;
    var e := y - n;
    assert e * s >= 0.0;
    assert e * s == m - n * s;
  }

  /** The scaled pair of a point of the domain, as the source computes it
      before converting the levels to binary. */
  function ToScaled(x1: real, x2: real, lay: Layout): (v: Scaled)
    requires MinX1 <= x1 <= MaxX1 && MinX2 <= x2 <= MaxX2
    ensures Fits(v, lay)
  {
    Scaled(Quantize(x1, MinX1, MaxX1, lay.len1), Quantize(x2, MinX2, MaxX2, lay.len2))
  }

  /** The source's encoding of a point of the domain: its scaled pair in binary. */
  function EncodePoint(x1: real, x2: real, lay: Layout): (c: Chromosome)
    requires MinX1 <= x1 <= MaxX1 && MinX2 <= x2 <= MaxX2
    ensures |c.genes| == TotalLength(lay)
  {
    Encode(ToScaled(x1, x2, lay), lay)
  }

  /** The source's decoding of a chromosome to a point: the two segment values
      mapped back to reals. Fails as the split does. */
  function DecodePoint(c: Chromosome, lay: Layout): (r: Result<(real, real)>)
    requires lay.len1 >= 1 && lay.len2 >= 1
    ensures r.Ok? <==> |c.genes| >= TotalLength(lay)
    ensures r.Err? ==> r.error == IndexOutOfRange
    ensures r.Ok? ==> MinX1 <= r.value.0 <= MaxX1 && MinX2 <= r.value.1 <= MaxX2
  {
    match Decode(c, lay)
    case Err(e) => Err(e)
    case Ok(v) =>
      Ok((Dequantize(v.x1, MinX1, MaxX1, lay.len1), Dequantize(v.x2, MinX2, MaxX2, lay.len2)))
  }

  /** Decoding an encoded point gives back, per variable, the largest level
      value not above it: at most one level width below. */
  lemma PointRoundTrip(x1: real, x2: real, lay: Layout)
    requires lay.len1 >= 1 && lay.len2 >= 1
    requires MinX1 <= x1 <= MaxX1 && MinX2 <= x2 <= MaxX2
    ensures DecodePoint(EncodePoint(x1, x2, lay), lay).Ok?
    ensures var y := DecodePoint(EncodePoint(x1, x2, lay), lay).value;
      y.0 <= x1 < y.0 + Width(MinX1, MaxX1, lay.len1) && y.1 <= x2 < y.1 + Width(MinX2, MaxX2, lay.len2)
  {
    DecodeEncode(ToScaled(x1, x2, lay), lay);
    DequantizeQuantize(x1, MinX1, MaxX1, lay.len1);
    DequantizeQuantize(x2, MinX2, MaxX2, lay.len2);
  }

  /** Re-encoding the point a full-length chromosome decodes to rebuilds it. */
  lemma PointEncodeDecode(c: Chromosome, lay: Layout)
    requires lay.len1 >= 1 && lay.len2 >= 1
    requires |c.genes| == TotalLength(lay)
    ensures DecodePoint(c, lay).Ok?
    ensures EncodePoint(DecodePoint(c, lay).value.0, DecodePoint(c, lay).value.1, lay) == c
  {
    var v := Decode(c, lay).value;
    QuantizeDequantize(v.x1, MinX1, MaxX1, lay.len1);
    QuantizeDequantize(v.x2, MinX2, MaxX2, lay.len2);
    assert ToScaled(DecodePoint(c, lay).value.0, DecodePoint(c, lay).value.1, lay) == v;
    EncodeDecode(c, lay);
  }
}

=== FILE: randomness.dfy ===
/**
 Random draws made explicit: every call on the shared random generator
 becomes a real number in [0, 1) supplied by the caller, and the scaling and
 integer casts the source applies to it are written out.
 */
module Randomness {

  /** One value of the generator: a real in [0, 1). */
  predicate IsDraw(u: real)
  {
    0.0 <= u < 1.0
  }

  /** A cast of a real to an integer, which drops the fraction (toward zero). */
  function Truncate(x: real): (r: int)
    ensures 0.0 <= x ==> 0 <= r && r as real <= x < r as real + 1.0
    ensures x < 0.0 ==> r <= 0 && r as real - 1.0 < x <= r as real
  {
    if x >= 0.0 then x.Floor else -((-x).Floor)
  }

  /** A draw u scaled to the interval [min, max): a draw lands inside it,
      never on its upper end. */
  function RandomNumber(u: real, min: real, max: real): (x: real)
    ensures IsDraw(u) && min < max ==> min <= x < max
  {
    var x := u * (max - min) + min;
    assert IsDraw(u) && min < max ==> min <= x < max by {
      if IsDraw(u) && min < max {
        var m := ScaleBounds(u, max - min);
      }
    }
    x
  }

  /** An integer drawn as the truncation of a draw scaled to [lo, hi). */
  function DrawIndex(u: real, lo: int, hi: int): int
  {
    Truncate(RandomNumber(u, lo as real, hi as real))
  }

  /** A scaled draw never reaches its upper end: its truncation lies in [lo, hi). */
  lemma DrawIndexRange(u: real, lo: int, hi: int)
    requires IsDraw(u) && 0 <= lo < hi
    ensures lo <= DrawIndex(u, lo, hi) < hi
  {
    var w := hi as real - lo as real;
    var m := ScaleBounds(u, w);
    var x := RandomNumber(u, lo as real, hi as real);
    assert x == m + lo as real;
    assert lo as real <= x < hi as real;
    var r := Truncate(x);
    assert r as real <= x < r as real + 1.0;
    assert (lo - 1) as real < r as real < hi as real;
  }

  /** A draw times a positive width stays in [0, width). */
  lemma ScaleBounds(u: real, w: real) returns (m: real)
    requires IsDraw(u) && w > 0.0
    ensures m == u * w && 0.0 <= m < w
  {
    m := u * w;
  }

}

=== FILE: sampling.dfy ===
/**
 The random points of the initial population: x1 and x2 drawn uniformly from
 their domains and taken to their scaled pair. The source draws x1 from
 [MinX1, MaxX2) instead of [MinX1, MaxX1); both draws are modelled, and the
 initial population uses the source's one.
 */
module Sampling {

  import opened Randomness
  import opened Encoding
  import opened Quantization

  /** The x1 draw as the source writes it: over [MinX1, MaxX2), a strict
      part of the x1 domain. */
  function SampleX1AsWritten(u: real): (x: real)
    ensures IsDraw(u) ==> MinX1 <= x < MaxX2 < MaxX1
  {
    RandomNumber(u, MinX1, MaxX2)
  }

  /** No x1 from [MaxX2, MaxX1] is ever drawn by the source's initialisation,
      although it is part of the x1 domain: the upper 6.3 of its 15.1 width
      is never sampled. */
  lemma SampleX1AsWrittenMisses(u: real, x: real)
    requires IsDraw(u) && MaxX2 <= x <= MaxX1
    ensures SampleX1AsWritten(u) != x
  {
  }

  /** The intended x1 draw: over the whole x1 domain [MinX1, MaxX1). */
  function SampleX1(u: real): (x: real)
    requires IsDraw(u)
    ensures MinX1 <= x < MaxX1
  {
    RandomNumber(u, MinX1, MaxX1)
  }

  /** Every x1 of the domain below its upper end is the draw of some value of
      the generator. */
  lemma SampleX1Covers(x: real)
    requires MinX1 <= x < MaxX1
    ensures exists u :: IsDraw(u) && SampleX1(u) == x
  {
    var w := MaxX1 - MinX1;
    var u := (x - MinX1) / w;
    assert u * w == x - MinX1;
    assert IsDraw(u);
    assert SampleX1(u) == x;
  }

  /** The x2 draw: over [MinX2, MaxX2). */
  function SampleX2(u: real): (x: real)
    requires IsDraw(u)
    ensures MinX2 <= x < MaxX2
  {
    RandomNumber(u, MinX2, MaxX2)
  }

  /** The scaled pair of an initial point drawn from two values of the
      generator, with the source's x1 draw: its x1 level stands for a real
      below MaxX2, so the upper part of the x1 domain is never seeded. */
  function SamplePoint(u1: real, u2: real, lay: Layout): (v: Scaled)
    requires IsDraw(u1) && IsDraw(u2)
    ensures Fits(v, lay)
    ensures lay.len1 >= 1 ==> Dequantize(v.x1, MinX1, MaxX1, lay.len1) < MaxX2
  {
    var x1 := SampleX1AsWritten(u1);
    assert lay.len1 >= 1 ==> Dequantize(Quantize(x1, MinX1, MaxX1, lay.len1), MinX1, MaxX1, lay.len1) <= x1 by {
      if lay.len1 >= 1 {
        DequantizeQuantize(x1, MinX1, MaxX1, lay.len1);
      }
    }
    ToScaled(x1, SampleX2(u2), lay)
  }
}

=== FILE: selection.dfy ===
/**
 Fitness-proportionate (roulette-wheel) selection: the pool's fitness values
 are normalised by their sum, accumulated into a distribution that starts at
 0, and each draw picks the first pool member whose half-open interval of
 the distribution contains it.
 */
module Roulette {

  import opened Outcomes
  import opened Chromosomes
  import opened Encoding

  /** The fitness of every pool member: its decoded pair scored by the objective. */
  function Fitnesses(pool: seq<Chromosome>, objective: Scaled -> real, lay: Layout): (vals: seq<real>)
    requires AllAtLeast(pool, TotalLength(lay))
    ensures |vals| == |pool|
  {
    seq(|pool|, k requires 0 <= k < |pool| => objective(Decode(pool[k], lay).value))
  }

  /** A member that is the encoding of a fitting pair is scored at exactly
      that pair: decoding inside the fitness loop loses nothing. */
  lemma FitnessOfEncoded(pool: seq<Chromosome>, objective: Scaled -> real, lay: Layout, k: nat, v: Scaled)
    requires AllAtLeast(pool, TotalLength(lay)) && k < |pool|
    requires Fits(v, lay) && pool[k] == Encode(v, lay)
    ensures Fitnesses(pool, objective, lay)[k] == objective(v)
  {
    DecodeEncode(v, lay);
  }

  /** The sum of the values, added from the first to the last. */
  function Sum(v: seq<real>): real
  {
    if |v| == 0 then 0.0 else Sum(v[..|v| - 1]) + v[|v| - 1]
  }

  /** Every value divided by the total. */
  function Normalize(v: seq<real>, total: real): (ps: seq<real>)
    requires |v| > 0 ==> total != 0.0
    ensures |ps| == |v|
    ensures forall k :: 0 <= k < |v| ==> ps[k] * total == v[k]
  {
    seq(|v|, k requires 0 <= k < |v| => v[k] / total)
  }

  /** The running sums of ps, starting from 0: one more entry than ps, each
      entry the previous one plus the matching probability. */
  function Cdf(ps: seq<real>): (cdf: seq<real>)
    ensures |cdf| == |ps| + 1
    ensures cdf[0] == 0.0
    ensures forall i :: 0 <= i < |ps| ==> cdf[i + 1] == cdf[i] + ps[i]
  {
    if |ps| == 0 then [0.0]
    else
      var front := Cdf(ps[..|ps| - 1]);
      front + [front[|ps| - 1] + ps[|ps| - 1]]
  }

  /** The last entry of the running sums is the total. */
  lemma {:induction false} CdfEndsAtSum(ps: seq<real>)
    ensures Cdf(ps)[|ps|] == Sum(ps)
  {
    if |ps| > 0 {
      var front := ps[..|ps| - 1];
      CdfEndsAtSum(front);
      assert Cdf(ps)[..|ps|] == Cdf(front);
    }
  }

  /** Dividing every value by the total divides the sum by it. */
  lemma {:induction false} SumNormalized(v: seq<real>, total: real)
    requires total != 0.0
    ensures Sum(Normalize(v, total)) == Sum(v) / total
  {
    if |v| > 0 {
      var front := v[..|v| - 1];
      SumNormalized(front, total);
      assert Normalize(v, total)[..|v| - 1] == Normalize(front, total);
    }
  }

  /** Normalised values accumulate to exactly one. */
  lemma CdfOfNormalizedEndsAtOne(v: seq<real>)
    requires Sum(v) != 0.0
    ensures Cdf(Normalize(v, Sum(v)))[|v|] == 1.0
  {
    var total := Sum(v);
    var ps := Normalize(v, total);
    CdfEndsAtSum(ps);
    SumNormalized(v, total);
    DivSelf(total);
  }

  lemma DivSelf(t: real)
    requires t != 0.0
    ensures t / t == 1.0
  {
  }

  /** With non-negative probabilities the running sums never decrease. */
  lemma {:induction false} CdfMonotone(ps: seq<real>, i: nat, j: nat)
    requires forall k :: 0 <= k < |ps| ==> ps[k] >= 0.0
    requires i <= j <= |ps|
    ensures Cdf(ps)[i] <= Cdf(ps)[j]
    decreases j - i
  {
    if i < j {
      CdfMonotone(ps, i, j - 1);
    }
  }

  /** Member j owns the interval [cdf[j], cdf[j+1]), whose width is its share
      of the total fitness. */
  lemma IntervalIsShare(v: seq<real>, j: nat)
    requires Sum(v) != 0.0 && j < |v|
    ensures Cdf(Normalize(v, Sum(v)))[j + 1] - Cdf(Normalize(v, Sum(v)))[j] == v[j] / Sum(v)
  {
  }

  /** Whether interval j of the distribution contains r. */
  predicate InInterval(cdf: seq<real>, j: nat, r: real)
    requires j + 1 < |cdf|
  {
    cdf[j] <= r < cdf[j + 1]
  }

  /** The linear scan from index j: the first interval containing r, or
      |cdf| - 1 when none does. */
  function PickFrom(cdf: seq<real>, r: real, j: nat): (k: nat)
    requires 1 <= |cdf| && j <= |cdf| - 1
    ensures j <= k <= |cdf| - 1
    ensures k < |cdf| - 1 ==> InInterval(cdf, k, r)
    ensures forall m :: j <= m < k ==> !InInterval(cdf, m, r)
    decreases |cdf| - j
  {
    if j == |cdf| - 1 then j
    else if cdf[j] <= r && r < cdf[j + 1] then j
    else PickFrom(cdf, r, j + 1)
  }

  /** The scan of the source, from the first interval. */
  function Pick(cdf: seq<real>, r: real): (k: nat)
    requires 1 <= |cdf|
    ensures k <= |cdf| - 1
    ensures k < |cdf| - 1 ==> InInterval(cdf, k, r)
    ensures forall m :: 0 <= m < k ==> !InInterval(cdf, m, r)
  {
    PickFrom(cdf, r, 0)
  }

  /** A draw between the first and the last entry always lands in some interval. */
  lemma {:induction false} PickFinds(cdf: seq<real>, r: real)
    requires 1 <= |cdf| && cdf[0] <= r < cdf[|cdf| - 1]
    ensures Pick(cdf, r) < |cdf| - 1
  {
    var n := |cdf| - 1;
    if Pick(cdf, r) == n {
      IntervalExists(cdf, r, n);
    }
  }

  lemma {:induction false} IntervalExists(cdf: seq<real>, r: real, n: nat)
    requires 1 <= n < |cdf| && cdf[0] <= r < cdf[n]
    ensures exists m :: 0 <= m < n && InInterval(cdf, m, r)
  {
    if cdf[n - 1] <= r {
      assert InInterval(cdf, n - 1, r);
    } else {
      IntervalExists(cdf, r, n - 1);
    }
  }

  /** The distribution selection scans for a pool. */
  function PoolCdf(pool: seq<Chromosome>, objective: Scaled -> real, lay: Layout): (cdf: seq<real>)
    requires AllAtLeast(pool, TotalLength(lay))
    requires |pool| > 0 ==> Sum(Fitnesses(pool, objective, lay)) != 0.0
    ensures |cdf| == |pool| + 1
  {
    var vals := Fitnesses(pool, objective, lay);
    Cdf(Normalize(vals, Sum(vals)))
  }

  /** Selection: one scan per draw. A scan that finds no interval reads past
      the end of the pool, which fails; otherwise the picked members, in draw
      order, with repetition. */
  function Selection(pool: seq<Chromosome>, objective: Scaled -> real, lay: Layout,
                     popSize: nat, draws: seq<real>): (r: Result<seq<Chromosome>>)
    requires AllAtLeast(pool, TotalLength(lay))
    requires |pool| > 0 ==> Sum(Fitnesses(pool, objective, lay)) != 0.0
    requires |draws| == popSize
    ensures r.Ok? <==> forall k :: 0 <= k < popSize ==> Pick(PoolCdf(pool, objective, lay), draws[k]) < |pool|
    ensures r.Err? ==> r.error == IndexOutOfRange
    ensures r.Ok? ==> |r.value| == popSize
    ensures r.Ok? ==> forall k :: 0 <= k < popSize ==>
      var j := Pick(PoolCdf(pool, objective, lay), draws[k]);
      j < |pool| && r.value[k] == pool[j] && InInterval(PoolCdf(pool, objective, lay), j, draws[k])
  {
    var cdf := PoolCdf(pool, objective, lay);
    if forall k :: 0 <= k < popSize ==> Pick(cdf, draws[k]) < |pool| then
      Ok(seq(popSize, k requires 0 <= k < popSize => pool[Pick(cdf, draws[k])]))
    else
      Err(IndexOutOfRange)
  }

  /** Every draw in [0, 1) finds its interval once the total fitness is not
      zero, so selection then succeeds and returns only pool members. */
  lemma SelectionSucceeds(pool: seq<Chromosome>, objective: Scaled -> real, lay: Layout,
                          popSize: nat, draws: seq<real>)
    requires AllAtLeast(pool, TotalLength(lay))
    requires |pool| > 0 && Sum(Fitnesses(pool, objective, lay)) != 0.0
    requires |draws| == popSize
    requires forall k :: 0 <= k < popSize ==> 0.0 <= draws[k] < 1.0
    ensures Selection(pool, objective, lay, popSize, draws).Ok?
    ensures forall k :: 0 <= k < popSize ==> Selection(pool, objective, lay, popSize, draws).value[k] in pool
  {
    var vals := Fitnesses(pool, objective, lay);
    var cdf := PoolCdf(pool, objective, lay);
    CdfOfNormalizedEndsAtOne(vals);
    forall k | 0 <= k < popSize
      ensures Pick(cdf, draws[k]) < |pool|
    {
      PickFinds(cdf, draws[k]);
    }
  }

  /** All values positive makes the total positive. */
  lemma {:induction false} SumPositive(v: seq<real>)
    requires |v| > 0
    requires forall k :: 0 <= k < |v| ==> v[k] > 0.0
    ensures Sum(v) > 0.0
  {
    if |v| > 1 {
      SumPositive(v[..|v| - 1]);
    }
  }

  /** Values [1, 2, 3, 4] give the distribution [0, 0.1, 0.3, 0.6, 1]: the
      draw 0.05 picks the first member and 0.95 the last. */
  lemma RouletteExample()
    ensures Sum([1.0, 2.0, 3.0, 4.0]) == 10.0
    ensures Pick(Cdf(Normalize([1.0, 2.0, 3.0, 4.0], 10.0)), 0.05) == 0
    ensures Pick(Cdf(Normalize([1.0, 2.0, 3.0, 4.0], 10.0)), 0.95) == 3
  {
    var v := [1.0, 2.0, 3.0, 4.0];
    assert [1.0][..0] == [];
    assert Sum([1.0]) == 1.0;
    assert [1.0, 2.0][..1] == [1.0];
    assert Sum([1.0, 2.0]) == 3.0;
    assert [1.0, 2.0, 3.0][..2] == [1.0, 2.0];
    assert Sum([1.0, 2.0, 3.0]) == 6.0;
    assert v[..3] == [1.0, 2.0, 3.0];
    var cdf := Cdf(Normalize(v, 10.0));
    assert cdf == [0.0, 0.1, 0.3, 0.6, 1.0];
    assert InInterval(cdf, 0, 0.05);
    assert InInterval(cdf, 3, 0.95);
  }
}
